=== FILE: README.md ===
# Token and credential lifecycle of modern-node-auth-zero-dep

This is a Dafny model of the core of a small zero-dependency Node.js auth server. The core covers five things:

- password hashing and verification;
- the compact `header.body.signature` token codec;
- the access/refresh token service;
- a SQLite-backed TTL cache that stands in for Redis;
- the orchestrator that composes them: `signUp`, `login`, `refresh`, `logout` and `verifyAccessToken`.

Every operation is a pure function. It takes the state (the `users` table and the cache table) together with an explicit clock reading in milliseconds. It returns the operation's result and the state it leaves behind.

Exceptions are modelled as values:

- An uncaught exception is `Threw(fault)`.
- An exception caught inside the source and turned into `null` or `false` appears as exactly that.
- A storage failure of the SQLite backend is a `available = false` flag on the table concerned. Statements that run while the flag is false fail.

Crypto and encoding are uninterpreted: JSON plus base64url, HMAC-SHA256 and scrypt are function-valued fields of `Primitives`. The facts the proofs rely on are stated once, as a predicate that lemmas take as a hypothesis:

- `Lawful`:
  - base64url output stays in the alphabet of RFC 4648 section 5, so it never contains '.';
  - decoding an encoded segment gives back the JSON value;
  - an HMAC-SHA256 digest encodes to 43 characters;
  - scrypt returns the number of bytes asked for.

Collision-freedom is never assumed for all inputs at once. A 43-character digest cannot give distinct outputs for infinitely many keys, and a fixed-length key cannot do so for infinitely many passwords. Where a lemma needs it, the lemma names the values involved:

- `Jwt.SecretsSeparate`: the two configured secrets never sign one message alike. `Jwt.SecretsSeparateIsConsistent` shows this can hold together with the digest laws.
- The password lemmas assume that scrypt gives different keys for the two passwords being compared, under the one salt in question.

Some pieces are concrete:

- JavaScript's `split`;
- UTF-8 byte length, which `Buffer.from` and `timingSafeEqual` use;
- hex encoding;
- `timingSafeEqual`, which throws a RangeError when the byte lengths differ;
- `Math.floor(Date.now() / 1000)`.

The files:

| file | module |
|---|---|
| `wrappers.dfy` | `Option`, `Outcome` (returned or threw) and `Fault` |
| `text.dfy` | `Split`/`Join`, UTF-8 length, hex |
| `primitives.dfy` | JSON values, the abstract primitives and their laws, `timingSafeEqual`, the clock |
| `jwt.dfy` | `sign`, `verify` and `decode` of `src/utils/JWT.ts` |
| `token_service.dfy` | `src/token/token.service.ts` |
| `fake_redis.dfy` | `set`, `get`, `del` and the cleanup sweep of `src/redis/fake-redis.ts` |
| `user_service.dfy` | `src/user/user.service.ts` over the `users` table; the schema's PRIMARY KEY and UNIQUE constraints become the invariant `WellFormed` |
| `auth_service.dfy` | `src/auth/auth.service.ts` |
| `auth_properties.dfy` | properties of the orchestrator composed with the real collaborators |

Some behaviours of the code are easy to miss when reading it. The model keeps each of them as written:

- `refresh` never compares the presented refresh token with the one stored for the user. A rotated-out refresh token with a valid signature is still accepted (`AuthProperties.RefreshAcceptsRotatedOutToken`).
- `get` treats an entry as expired only when `expires_at < now`, so the expiry second itself is still served.
- `logout` clears the refresh token by value, in every row that holds it. It does not clear it per owning principal.
- Revocation is not terminal for a token string. A login inside the same clock second as an earlier one reissues the identical access token. That new login's `'valid'` upsert then overrides a blacklist written in between (`AuthProperties.ReloginSameSecondRevives`).
- A cache write failure in `generateTokens` or `logout` is not caught and propagates as an exception.

## Model

| member | source | states |
|---|---|---|
| Text.Split | src/utils/JWT.ts:38 | `split('.')` always yields at least one piece; no piece contains the separator; joining the pieces with it gives back the input |
| Text.SplitJoin | src/utils/JWT.ts:38-40 | splitting a join of separator-free pieces gives the pieces back, so split and join are mutually inverse |
| Text.SplitCons | src/user/user.service.ts:88 | a separator-free prefix followed by '.' becomes one piece of its own, ahead of the rest's pieces |
| Text.SplitNoSeparator | src/utils/JWT.ts:35 | a string without '.' splits into itself alone |
| Text.Utf8Length | src/utils/JWT.ts:48 | the UTF-8 byte length of a string lies between its character count and four times it |
| Text.Utf8LengthAscii | src/utils/JWT.ts:48 | byte length equals character count exactly when every character is ASCII |
| Text.Hex | src/user/user.service.ts:80-81 | hex encoding produces two hex digits per byte |
| Text.HexInjective | src/user/user.service.ts:89-90 | equal hex strings come from equal byte buffers, so comparing hex keys compares derived keys |
| Primitives.Base64UrlIsDotFreeAscii | src/utils/JWT.ts:22-29 | base64url text contains no '.' and its UTF-8 length equals its length |
| Primitives.TimingSafeEqual | src/utils/JWT.ts:48 | throws a RangeError exactly when the UTF-8 byte lengths differ; returns true exactly when the strings are equal |
| Primitives.UnixSeconds | src/redis/fake-redis.ts:12 | the result is the floor of the millisecond clock divided by 1000 |
| Jwt.Claims | src/utils/JWT.ts:23-25 | the claims are the payload with `exp` added as issue second plus TTL, replacing any caller `exp`, all other fields kept |
| Jwt.Verify | src/utils/JWT.ts:34-49 | a token whose segment count is not 3 is rejected; the only exception is a RangeError; acceptance implies the third segment is the class-secret HMAC of the first two |
| Jwt.Decode | src/utils/JWT.ts:51-58 | a token with no '.' decodes to null instead of throwing |
| Jwt.SignSegments | src/utils/JWT.ts:20-31 | a signed token splits into exactly the encoded header, the encoded claims and their signature |
| Jwt.SignDiffersAcrossSeconds | src/utils/JWT.ts:20-31 | two tokens signed over the same payload, class and TTL in different seconds are different strings |
| Jwt.VerifySign | src/utils/JWT.ts:20-48 | verify accepts what sign produced with the same class flag, for every payload, TTL and clock reading, expired tokens included |
| Jwt.VerifyAcceptsExactlySigned | src/utils/JWT.ts:37-48 | verify accepts a token if and only if it is `h.b.HMAC(secret, "h.b")` for dot-free `h` and `b`; nothing else (e.g. `exp`) affects it |
| Jwt.VerifyThrowsOnSignatureLength | src/utils/JWT.ts:48 | on three segments, verify throws exactly when the signature segment is not 43 bytes |
| Jwt.VerifyRejectsOtherClass | src/utils/JWT.ts:21-37 | when the two secrets never sign a message alike, a token of one class is rejected (not thrown on) by the other class |
| Jwt.DecodeSign | src/utils/JWT.ts:51-54 | decoding a signed token returns the payload with `exp` set to issue second plus TTL |
| Jwt.DecodeReadsSecondSegment | src/utils/JWT.ts:51-57 | decode reads only the second segment and ignores any signature part, forged, absent or containing more dots |
| TokenService.DecodeToken | src/token/token.service.ts:31-46 | returns the decoded value unchanged when it has a numeric id, null when decode failed or the id is missing or not a number; never throws |
| TokenService.AccessSignVerify | src/token/token.service.ts:11-23 | an access token signed with the defaults verifies under `verify` |
| TokenService.RefreshSignVerify | src/token/token.service.ts:16-28 | a refresh token verifies under `verifyRefreshToken` |
| TokenService.ClassesDoNotMix | src/token/token.service.ts:11-28 | when the two secrets never sign a message alike, an access token fails `verifyRefreshToken` and a refresh token fails `verify` |
| TokenService.DecodeTokenOfSigned | src/token/token.service.ts:31-46 | a signed token decodes to payload plus `exp` exactly when the payload has a numeric id, otherwise null |
| FakeRedis.Set | src/redis/fake-redis.ts:11-19 | throws a storage error exactly when the backend fails; otherwise upserts `(value, now + ttl)` with default TTL 600 and leaves every other key unchanged |
| FakeRedis.Del | src/redis/fake-redis.ts:37-45 | true exactly when the key was present and the backend answers; removes that key only; a storage error gives false and leaves the store unchanged |
| FakeRedis.Get | src/redis/fake-redis.ts:21-35 | returns the stored value exactly when the entry is present and not past its second; a missing or expired key is deleted, no other key is touched; a storage error gives null and leaves the store unchanged |
| FakeRedis.Sweep | src/redis/fake-redis.ts:49-54 | keeps exactly the entries that are still live, unchanged; a storage error leaves the table as it was |
| FakeRedis.GetAbsent | src/redis/fake-redis.ts:26-28 | get on an absent key returns null and changes nothing |
| FakeRedis.SetThenGet | src/redis/fake-redis.ts:11-30 | after `set(k, v, ttl)` at t, `get(k)` at any t' up to second t + ttl, the boundary included, returns v and evicts nothing |
| FakeRedis.GetExpired | src/redis/fake-redis.ts:26-28 | past expiry, get returns null and removes that key and no other |
| FakeRedis.DelTwice | src/redis/fake-redis.ts:37-41 | a second del of the same key returns false and changes nothing |
| FakeRedis.SweepIdempotent | src/redis/fake-redis.ts:50-51 | sweeping twice at the same clock reading equals sweeping once |
| FakeRedis.SweepUnobservable | src/redis/fake-redis.ts:21-54 | at or after the sweep's clock reading, get returns the same value with or without the sweep |
| UserService.VerifyPassword | src/user/user.service.ts:86-95 | true exactly when the stored value has a second '.'-segment equal to the hex scrypt key of the password under the first segment; never throws |
| UserService.FindByName | src/user/user.service.ts:34-37 | finds a row with that username, and finds none exactly when no row has it |
| UserService.FindById | src/user/user.service.ts:48-49 | finds a row with that id, and finds none exactly when no row has it |
| UserService.GetUserByUsername | src/user/user.service.ts:34-42 | returns a row with that username exactly when the table answers and the name is taken |
| UserService.GetUserById | src/user/user.service.ts:45-54 | null for a falsy id or a storage error; otherwise id and username of a row with that id, null exactly when none has it |
| UserService.CreateUser | src/user/user.service.ts:21-31 | null exactly when the username is taken or storage fails, leaving the table unchanged; otherwise appends the next id, the name and the hash of the argument |
| UserService.FindByNameAppend | src/user/user.service.ts:24-26 | a freshly inserted unique username is read back as the new row |
| UserService.StoreRefreshToken | src/user/user.service.ts:57-65 | true exactly when a row has that id; sets that row's refresh token and changes nothing else |
| UserService.RemoveRefreshToken | src/user/user.service.ts:68-76 | true exactly when some row holds the token; clears it in every such row and changes nothing else |
| UserService.HashPasswordFormat | src/user/user.service.ts:79-83 | the hash splits on '.' into exactly a hex salt of 2 x saltRounds digits and a 128-digit hex key |
| UserService.HashPasswordLength | src/user/user.service.ts:79-83 | every stored hash is 2 x saltRounds + 129 characters long, 153 with the default `SALT_ROUNDS` of 12 salt bytes |
| UserService.HexIsDotFree | src/user/user.service.ts:80-82 | hex text contains no '.' |
| UserService.VerifyOwnHash | src/user/user.service.ts:79-95 | a password verifies against its own hash, whatever salt was drawn |
| UserService.VerifyOtherPasswordFails | src/user/user.service.ts:86-90 | another password fails against the hash whenever its scrypt key under that salt differs from the password's |
| UserService.VerifyMalformedFails | src/user/user.service.ts:86-94 | a stored value with no '.', or whose key segment is not 128 bytes, is rejected without throwing |
| UserService.CreateUserWellFormed | src/database/database.ts:12-17 | inserts keep ids increasing below the AUTOINCREMENT sequence and usernames unique |
| UserService.FindByNameIgnoresRefreshTokens | src/user/user.service.ts:34-37 | a lookup by username over rows that differ only in refresh tokens finds the same id, username and password hash |
| UserService.RefreshColumnPreservesCredentials | src/user/user.service.ts:57-76 | storing or clearing a refresh token keeps the schema invariant, and a lookup by any username finds the same account with the same password hash before and after |
| UserService.RemoveRefreshTokenTwice | src/user/user.service.ts:68-72 | an immediate second removal of the same token returns false and changes nothing |
| AuthService.GenerateTokens | src/auth/auth.service.ts:68-76 | throws exactly when the cache write fails, then changing nothing; otherwise caches the access token as `'valid'` for 600 seconds, leaves every other cache entry as it was, and stores the refresh token for that id |
| AuthService.SignUpAsWritten | src/auth/auth.service.ts:15-21 | signUp as written (double hash): null, with no change, exactly when the username is taken or storage fails; on success the new id, one appended row holding the username, the hash of the first hash and the issued refresh token, earlier rows' credentials and other cache entries untouched, the access token cached as valid for 600 s and no other key added; when the cache write throws, the inserted row stays |
| AuthService.SignUp | src/auth/auth.service.ts:15-21 | the corrected signUp, which skips the extra hash of line 16 and hands the plain password to `createUser`: null, with no change, exactly when `createUser` returns null; on success the new id, one appended row holding the username, the single hash and the issued refresh token, earlier rows' credentials and other cache entries untouched, the access token cached as valid for 600 s and no other key added; when the cache write throws, the inserted row stays |
| AuthService.Login | src/auth/auth.service.ts:24-29 | the same null for an unknown username and a wrong password, with no change; otherwise a pair for that user's id |
| AuthService.Refresh | src/auth/auth.service.ts:32-42 | a new pair only when the refresh signature verifies, the id is numeric and a user has it, and then exactly what `generateTokens` issues for that user's row (both tokens signed, the access token cached as valid, the stored refresh token rotated); a verify exception propagates; null or an exception changes nothing |
| AuthService.Logout | src/auth/auth.service.ts:45-50 | false and no change when either token is empty; otherwise blacklists the access token for 3600 seconds, leaving every other cache entry as it was (a cache failure throws), and returns whether the refresh token was cleared |
| AuthService.VerifyAccessToken | src/auth/auth.service.ts:53-65 | a cached blacklist rejects; a cached `'valid'` resolves the decoded id without a signature check; anything else requires `verify`, whose exception propagates |
| AuthProperties.GetUserByIdFinds | src/user/user.service.ts:45-49 | with unique ids, looking up a stored row's id yields that row |
| AuthProperties.GetUserByUsernameFinds | src/user/user.service.ts:34-37 | with unique usernames, looking up a stored row's name yields that row |
| AuthProperties.GenerateTokensClaims | src/auth/auth.service.ts:68-75 | the access token carries `{id, username, exp}`, the refresh token only `{id, exp}`, and each verifies under its own class |
| AuthProperties.RefreshSucceedsIff | src/auth/auth.service.ts:32-42 | with the cache up, refresh issues a pair if and only if signature, numeric id and user all check out |
| AuthProperties.GenerateTokensWellFormed | src/auth/auth.service.ts:68-76 | issuing tokens keeps the schema invariant |
| AuthProperties.SignUpWellFormed | src/auth/auth.service.ts:15-21 | signUp keeps the schema invariant |
| AuthProperties.LoginWellFormed | src/auth/auth.service.ts:24-29 | login keeps the schema invariant |
| AuthProperties.RefreshWellFormed | src/auth/auth.service.ts:32-42 | refresh keeps the schema invariant |
| AuthProperties.LogoutWellFormed | src/auth/auth.service.ts:45-50 | logout keeps the schema invariant |
| AuthProperties.RevokedIsRejected | src/auth/auth.service.ts:53-56 | a live blacklist entry rejects a token however valid its signature |
| AuthProperties.LogoutRevokes | src/auth/auth.service.ts:45-56 | after logout at t, the access token is rejected at every time up to second t + 3600, the boundary included |
| AuthProperties.RevokedSurvivesCacheTraffic | src/redis/fake-redis.ts:21-54 | sweeps and cache reads before the moment of interest leave a revocation in force |
| AuthProperties.RevocationNeedsCache | src/auth/auth.service.ts:53-64 | with the cache down, a genuinely signed access token resolves to its user whether or not it was logged out |
| AuthProperties.SignedTokenResolves | src/auth/auth.service.ts:53-64 | a verifying token whose id names a user resolves to that user unless the cache says blacklisted |
| AuthProperties.IssuedAccessResolves | src/auth/auth.service.ts:53-76 | an issued access token resolves to its user at every later clock reading, with no operation in between; `exp` is never consulted |
| AuthProperties.LoginThenVerify | src/auth/auth.service.ts:24-64 | after a successful login the access token resolves to the logged-in user at every later clock reading, with no operation in between |
| AuthProperties.LoginFindsRow | src/auth/auth.service.ts:24-29 | with the right password, login on a stored username issues tokens for that row |
| AuthProperties.IssueLogoutKeepsRow | src/auth/auth.service.ts:45-76 | issuing tokens then logging out keeps every row's id, username and password |
| AuthProperties.GenerateTokensSameSecond | src/auth/auth.service.ts:68-75 | two issues in the same clock second produce the same token pair |
| AuthProperties.ReloginSameSecondRevives | src/auth/auth.service.ts:24-72 | login, logout, then login in the same second returns the same pair, and the blacklisted access token resolves again |
| AuthProperties.RefreshAcceptsRotatedOutToken | src/auth/auth.service.ts:32-42 | a refresh stores a new refresh token for the user, different from the presented one when issued in a later second, and the presented token is still accepted afterwards |
| AuthProperties.SignUpThenLogin | src/auth/auth.service.ts:15-29 | with the password hashed once, signUp of a free username succeeds and a later login with the same password succeeds for the same id |
| AuthProperties.SignUpAsWrittenBreaksLogin | src/auth/auth.service.ts:15-29 | with the double hash, signUp of a free username succeeds and the account exists, but a later login with the same password fails, unless scrypt collides on the password and its first hash |
| AuthProperties.ShortcutAgreesWithSignature | src/auth/auth.service.ts:53-64 | while every `'valid'` entry is a signed token, whatever verifyAccessToken accepts also passes `verify` |
| AuthProperties.GenerateTokensKeepsSigned | src/auth/auth.service.ts:68-76 | issuing tokens caches only signed tokens as valid |
| AuthProperties.SignUpKeepsSigned | src/auth/auth.service.ts:15-21 | signUp keeps the cached-valid-is-signed invariant |
| AuthProperties.LoginKeepsSigned | src/auth/auth.service.ts:24-29 | login keeps the invariant |
| AuthProperties.RefreshKeepsSigned | src/auth/auth.service.ts:32-42 | refresh keeps the invariant |
| AuthProperties.CacheTrafficKeepsSigned | src/auth/auth.service.ts:45-65 | logout, verifyAccessToken and the sweep keep the invariant |

## Left out

- HTTP handling, routes and process wiring (`auth.controller.ts`, `auth.routes.ts`, `index.ts`) are I/O plumbing.
- The SQLite singleton and schema text are left out. Only the UNIQUE username, the AUTOINCREMENT id and the PRIMARY KEY cache key enter the model, as the invariant and the map.
- The `setInterval` timer is left out. The sweep body is a function of the clock reading.
- Concurrency between parallel calls is left out. The source has no synchronisation to model.
- HMAC-SHA256, scrypt, randomBytes, base64url and JSON are foreign calls. They are uninterpreted, under the stated laws.
- JSON numbers are integers only. A payload with a fractional `id` is not represented.
- Strings are sequences of code points. Lone surrogates and their UTF-8 replacement are not modelled.
- Parsing `SALT_ROUNDS` from the environment is left out. `saltRounds` is a parameter, 12 by default.
- Storage failure is one flag per table. A statement that fails for some other reason on an available table, such as a failed read of a row just inserted, is not modelled.
- `console.error` logging is I/O.
- Jwt.Sign: no contract of its own. Its behaviour is stated by `Jwt.SignSegments`, `Jwt.VerifySign` and `Jwt.DecodeSign`.
- TokenService.SignAccessToken: no contract of its own. It is stated through `TokenService.AccessSignVerify` and `TokenService.DecodeTokenOfSigned`.
- TokenService.SignRefreshToken: no contract of its own; stated the same way as `SignAccessToken`.
- TokenService.VerifyAccess: no contract of its own. It is stated through `TokenService.AccessSignVerify` and `TokenService.ClassesDoNotMix`.
- TokenService.VerifyRefreshToken: no contract of its own; stated the same way as `VerifyAccess`.
- UserService.HashPassword: no contract of its own; stated through `UserService.HashPasswordFormat`.
- UserService.VerifyOtherPasswordFails: assumes scrypt does not collide on the two passwords under that salt. Real scrypt makes a collision only improbable, not impossible, and the model cannot state a probability.
- AuthProperties.SignUpAsWrittenBreaksLogin: assumes, in the same way, that scrypt does not collide on the password and its first hash under the second salt.
- AuthService.GenerateTokens: takes one clock reading for the whole call. The source reads `Date.now()` three times: once in each `sign` (src/utils/JWT.ts:24) and once in the cache `set` (src/redis/fake-redis.ts:12). Across a second boundary the two `exp` claims and the cache expiry can therefore differ by one second. `AuthProperties.GenerateTokensSameSecond` and `AuthProperties.ReloginSameSecondRevives` rely on the single reading.
- Storage failure is modelled per table, but the `users` table and the cache table share one database handle (src/index.ts:11-16). Most backend failures hit both tables at once. The independent flags allow more failure combinations than the source can produce. In particular, the premise of `AuthProperties.RevocationNeedsCache` (cache down, `users` table answering) needs a failure confined to the cache table, such as a dropped or locked `redis_store`.

## Findings

| source | as written | input that shows it | evidently intended | confidence | as-written member | corrected member |
|---|---|---|---|---|---|---|
| src/auth/auth.service.ts:16-17 | `signUp` hashes the password and `createUser` hashes it again, so the stored value is the hash of the hash | `signUp("alice", "pw1")` then `login("alice", "pw1")` returns null | the password is hashed once, by `createUser`, so login after signUp succeeds | not executed | AuthProperties.SignUpAsWrittenBreaksLogin | AuthProperties.SignUpThenLogin |

=== FILE: auth_properties.dfy ===
/**
  Properties of the orchestrator composed with the real collaborators: what
  a client observes across several calls.
*/
module AuthProperties {
  import opened Wrappers
  import opened Text
  import opened Primitives
  import opened Jwt
  import opened FakeRedis
  import opened TokenService
  import opened UserService
  import opened AuthService

  /** With unique ids, looking up a stored row's id yields that row's id and username. */
  lemma GetUserByIdFinds(t: UserTable, i: int)
    requires WellFormed(t) && t.available
    requires 0 <= i < |t.rows|
    ensures GetUserById(t, Some(t.rows[i].id)) == Some(Principal(t.rows[i].id, t.rows[i].username))
  {
    var found := FindById(t.rows, t.rows[i].id);
    var j :| 0 <= j < |t.rows| && t.rows[j] == found.value;
    assert t.rows[j].id == t.rows[i].id;
  }

  /** With unique usernames, looking up a stored row's username yields exactly that row. */
  lemma GetUserByUsernameFinds(t: UserTable, i: int)
    requires WellFormed(t) && t.available
    requires 0 <= i < |t.rows|
    ensures GetUserByUsername(t, t.rows[i].username) == Some(t.rows[i])
  {
    var found := GetUserByUsername(t, t.rows[i].username);
    var j :| 0 <= j < |t.rows| && t.rows[j] == found.value;
    assert t.rows[j].username == t.rows[i].username;
  }

  /**
    The tokens `generateTokens` issues: the access token carries `{id, username, exp}`,
    the refresh token `{id, exp}` only, each with exp one hour after issue, and
    each verifies under its own class.
  */
  lemma GenerateTokensClaims(svc: Services, st: AuthState, userId: int, username: string, nowMs: int)
    requires Lawful(svc.tokens.jwt.prims)
    requires st.cache.available
    ensures
      var t := GenerateTokens(svc, st, userId, username, nowMs).0.value;
      var exp := JNum(UnixSeconds(nowMs) + DefaultExpiresIn);
      && DecodeToken(svc.tokens, t.accessToken)
           == Some(JObj(map["id" := JNum(userId), "username" := JStr(username), "exp" := exp]))
      && DecodeToken(svc.tokens, t.refreshToken) == Some(JObj(map["id" := JNum(userId), "exp" := exp]))
      && VerifyAccess(svc.tokens, t.accessToken) == Returned(true)
      && VerifyRefreshToken(svc.tokens, t.refreshToken) == Returned(true)
  {
    DecodeTokenOfSigned(svc.tokens, AccessPayload(userId, username), false, nowMs);
    DecodeTokenOfSigned(svc.tokens, RefreshPayload(userId), true, nowMs);
    AccessSignVerify(svc.tokens, AccessPayload(userId, username), nowMs);
    RefreshSignVerify(svc.tokens, RefreshPayload(userId), nowMs);
  }

  /** While the cache accepts writes, refresh issues a pair exactly when signature, numeric id and user all check out. */
  lemma RefreshSucceedsIff(svc: Services, st: AuthState, refreshToken: string, nowMs: int)
    requires st.cache.available
    ensures
      var r := Refresh(svc, st, refreshToken, nowMs).0;
      (r.Returned? && r.value.Some?) <==>
        && VerifyRefreshToken(svc.tokens, refreshToken) == Returned(true)
        && IdField(DecodeToken(svc.tokens, refreshToken)).Some?
        && GetUserById(st.table, IdField(DecodeToken(svc.tokens, refreshToken))).Some?
  {
  }

  /** Every operation keeps the schema's guarantees on the user table. */
  lemma GenerateTokensWellFormed(svc: Services, st: AuthState, userId: int, username: string, nowMs: int)
    requires WellFormed(st.table)
    ensures WellFormed(GenerateTokens(svc, st, userId, username, nowMs).1.table)
  {
    var refresh := SignRefreshToken(svc.tokens, RefreshPayload(userId), nowMs);
    RefreshColumnPreservesCredentials(st.table, userId, refresh);
  }

  lemma SignUpWellFormed(svc: Services, st: AuthState, username: string, password: string, salt: seq<byte>, nowMs: int)
    requires WellFormed(st.table)
    requires |salt| == svc.users.saltRounds
    ensures WellFormed(SignUp(svc, st, username, password, salt, nowMs).1.table)
  {
    var (user, table') := CreateUser(svc.users, st.table, username, password, salt);
    CreateUserWellFormed(svc.users, st.table, username, password, salt);
    if user.Some? {
      GenerateTokensWellFormed(svc, st.(table := table'), user.value.id, username, nowMs);
    }
  }

  lemma LoginWellFormed(svc: Services, st: AuthState, username: string, password: string, nowMs: int)
    requires WellFormed(st.table)
    ensures WellFormed(Login(svc, st, username, password, nowMs).1.table)
  {
    var found := GetUserByUsername(st.table, username);
    if found.Some? {
      GenerateTokensWellFormed(svc, st, found.value.id, username, nowMs);
    }
  }

  lemma RefreshWellFormed(svc: Services, st: AuthState, refreshToken: string, nowMs: int)
    requires WellFormed(st.table)
    ensures WellFormed(Refresh(svc, st, refreshToken, nowMs).1.table)
  {
    var decoded := DecodeToken(svc.tokens, refreshToken);
    if decoded.Some? {
      var p := GetUserById(st.table, Some(IdOf(decoded.value)));
      if p.Some? {
        GenerateTokensWellFormed(svc, st, p.value.id, p.value.username, nowMs);
      }
    }
  }

  lemma LogoutWellFormed(svc: Services, st: AuthState, accessToken: string, refreshToken: string, nowMs: int)
    requires WellFormed(st.table)
    ensures WellFormed(Logout(svc, st, accessToken, refreshToken, nowMs).1.table)
  {
    RefreshColumnPreservesCredentials(st.table, 0, refreshToken);
  }

  /** The access token is blacklisted with an unexpired entry, and the cache is answering. */
  ghost predicate Revoked(cache: Redis, accessToken: string, nowMs: int)
  {
    && cache.available
    && accessToken in cache.entries
    && cache.entries[accessToken].value == BlacklistedStatus
    && Live(cache.entries[accessToken], nowMs)
  }

  /** A revoked token is rejected by verifyAccessToken, however valid its signature. */
  lemma RevokedIsRejected(svc: Services, st: AuthState, accessToken: string, nowMs: int)
    requires Revoked(st.cache, accessToken, nowMs)
    ensures VerifyAccessToken(svc, st, accessToken, nowMs).0 == Returned(None)
  {
  }

  /** After a logout with both tokens present, the access token stays revoked for 3600 seconds, the last second included. */
  lemma LogoutRevokes(svc: Services, st: AuthState, accessToken: string, refreshToken: string, t: int, t': int)
    requires accessToken != "" && refreshToken != "" && st.cache.available
    requires UnixSeconds(t') <= UnixSeconds(t) + BlacklistTtl
    ensures Revoked(Logout(svc, st, accessToken, refreshToken, t).1.cache, accessToken, t')
    ensures VerifyAccessToken(svc, Logout(svc, st, accessToken, refreshToken, t).1, accessToken, t').0 == Returned(None)
  {
  }

  /** Sweeps and cache reads up to the moment of interest leave a revocation in force. */
  lemma RevokedSurvivesCacheTraffic(cache: Redis, accessToken: string, key: string, s: int, nowMs: int)
    requires Revoked(cache, accessToken, nowMs)
    requires s <= nowMs
    ensures Revoked(Sweep(cache, s), accessToken, nowMs)
    ensures Revoked(Get(cache, key, s).1, accessToken, nowMs)
  {
    assert UnixSeconds(s) <= UnixSeconds(nowMs);
  }

  /**
    A logged-out access token whose signature is genuine verifies again as
    soon as the cache stops answering: revocation lives only in the cache, and
    a failed cache read falls back to the signature check.
  */
  lemma RevocationNeedsCache(svc: Services, st: AuthState, i: int, issuedAt: int, nowMs: int)
    requires Lawful(svc.tokens.jwt.prims)
    requires WellFormed(st.table) && st.table.available && !st.cache.available
    requires 0 <= i < |st.table.rows|
    ensures
      var row := st.table.rows[i];
      var token := SignAccessToken(svc.tokens, AccessPayload(row.id, row.username), issuedAt);
      VerifyAccessToken(svc, st, token, nowMs).0 == Returned(Some(Principal(row.id, row.username)))
  {
    var row := st.table.rows[i];
    AccessSignVerify(svc.tokens, AccessPayload(row.id, row.username), issuedAt);
    DecodeTokenOfSigned(svc.tokens, AccessPayload(row.id, row.username), false, issuedAt);
    GetUserByIdFinds(st.table, i);
  }

  /**
    A token whose access signature verifies and whose id names a user resolves
    to that user unless the cache reports it blacklisted, whether the cache
    holds it as valid, has let it expire, or is down.
  */
  lemma SignedTokenResolves(svc: Services, st: AuthState, token: string, p: Principal, nowMs: int)
    requires VerifyAccess(svc.tokens, token) == Returned(true)
    requires GetUserById(st.table, IdField(DecodeToken(svc.tokens, token))) == Some(p)
    requires Get(st.cache, token, nowMs).0 != Some(BlacklistedStatus)
    ensures VerifyAccessToken(svc, st, token, nowMs).0 == Returned(Some(p))
  {
  }

  /** The access token `generateTokens` issues for a stored row resolves to that row's user at every later clock reading. */
  lemma IssuedAccessResolves(svc: Services, st: AuthState, k: int, t: int, t': int)
    requires Lawful(svc.tokens.jwt.prims)
    requires WellFormed(st.table) && st.table.available && st.cache.available
    requires 0 <= k < |st.table.rows|
    ensures
      var row := st.table.rows[k];
      var (r, st') := GenerateTokens(svc, st, row.id, row.username, t);
      VerifyAccessToken(svc, st', r.value.accessToken, t').0 == Returned(Some(Principal(row.id, row.username)))
  {
    var row := st.table.rows[k];
    var (r, st') := GenerateTokens(svc, st, row.id, row.username, t);
    GenerateTokensClaims(svc, st, row.id, row.username, t);
    var access := r.value.accessToken;
    assert IdField(DecodeToken(svc.tokens, access)) == Some(row.id);
    GenerateTokensWellFormed(svc, st, row.id, row.username, t);
    RefreshColumnPreservesCredentials(st.table, row.id, r.value.refreshToken);
    assert st'.table.rows[k].id == row.id && st'.table.rows[k].username == row.username;
    GetUserByIdFinds(st'.table, k);
    assert st'.cache.entries[access].value == ValidStatus;
    SignedTokenResolves(svc, st', access, Principal(row.id, row.username), t');
  }

  /**
    After a successful login, the access token resolves to the logged-in user
    at every later clock reading: through the cache while its 600-second entry
    lives, through the signature check afterwards. The `exp` claim is never
    consulted, so the token does not expire.
  */
  lemma LoginThenVerify(svc: Services, st: AuthState, username: string, password: string, t: int, t': int)
    requires Lawful(svc.tokens.jwt.prims)
    requires WellFormed(st.table)
    requires Login(svc, st, username, password, t).0.Returned?
    requires Login(svc, st, username, password, t).0.value.Some?
    ensures
      var (r, st') := Login(svc, st, username, password, t);
      VerifyAccessToken(svc, st', r.value.value.accessToken, t').0
        == Returned(Some(Principal(r.value.value.id, username)))
  {
    var user := GetUserByUsername(st.table, username).value;
    var k :| 0 <= k < |st.table.rows| && st.table.rows[k] == user;
    IssuedAccessResolves(svc, st, k, t, t');
  }

  /** With the right password, login on a stored row's username issues tokens for that row. */
  lemma LoginFindsRow(svc: Services, st: AuthState, k: int, password: string, t: int)
    requires WellFormed(st.table) && st.table.available
    requires 0 <= k < |st.table.rows|
    requires VerifyPassword(svc.users, password, st.table.rows[k].password)
    ensures Login(svc, st, st.table.rows[k].username, password, t)
      == Issue(GenerateTokens(svc, st, st.table.rows[k].id, st.table.rows[k].username, t))
  {
    GetUserByUsernameFinds(st.table, k);
  }

  /** Issuing tokens and then logging out keeps the schema's guarantees and every row's credentials. */
  lemma IssueLogoutKeepsRow(svc: Services, st: AuthState, k: int, t: int, access: string, refresh: string, t2: int)
    requires WellFormed(st.table)
    requires 0 <= k < |st.table.rows|
    ensures
      var row := st.table.rows[k];
      var st1 := GenerateTokens(svc, st, row.id, row.username, t).1;
      var st2 := Logout(svc, st1, access, refresh, t2).1;
      && WellFormed(st2.table) && st2.table.available == st.table.available
      && |st2.table.rows| == |st.table.rows|
      && st2.table.rows[k].id == row.id
      && st2.table.rows[k].username == row.username
      && st2.table.rows[k].password == row.password
      && (st.cache.available ==> st2.cache.available)
  {
    var row := st.table.rows[k];
    var st1 := GenerateTokens(svc, st, row.id, row.username, t).1;
    GenerateTokensWellFormed(svc, st, row.id, row.username, t);
    if st.cache.available {
      RefreshColumnPreservesCredentials(st.table, row.id, SignRefreshToken(svc.tokens, RefreshPayload(row.id), t));
    }
    RefreshColumnPreservesCredentials(st1.table, 0, refresh);
  }

  /** Tokens depend on the clock only through its second: two readings in the same second issue the same pair. */
  lemma GenerateTokensSameSecond(svc: Services, st: AuthState, st': AuthState, userId: int, username: string, t: int, t': int)
    requires st.cache.available && st'.cache.available
    requires UnixSeconds(t) == UnixSeconds(t')
    ensures GenerateTokens(svc, st, userId, username, t).0 == GenerateTokens(svc, st', userId, username, t').0
  {
    assert Claims(AccessPayload(userId, username), DefaultExpiresIn, t)
        == Claims(AccessPayload(userId, username), DefaultExpiresIn, t');
    assert Claims(RefreshPayload(userId), DefaultExpiresIn, t)
        == Claims(RefreshPayload(userId), DefaultExpiresIn, t');
  }

  /**
    Revocation is not terminal for a token string: signing is deterministic
    and `exp` has one-second resolution, so a second login within the same
    clock second reissues the very access token that a logout in between
    blacklisted, and its `'valid'` upsert replaces the blacklist entry.
  */
  lemma ReloginSameSecondRevives(svc: Services, st: AuthState, k: int, password: string,
                                 t: int, t2: int, t3: int, t4: int)
    requires Lawful(svc.tokens.jwt.prims)
    requires WellFormed(st.table) && st.table.available && st.cache.available
    requires 0 <= k < |st.table.rows|
    requires VerifyPassword(svc.users, password, st.table.rows[k].password)
    requires UnixSeconds(t3) == UnixSeconds(t)
    ensures
      var row := st.table.rows[k];
      var (r1, st1) := Login(svc, st, row.username, password, t);
      var st2 := Logout(svc, st1, r1.value.value.accessToken, r1.value.value.refreshToken, t2).1;
      var (r3, st3) := Login(svc, st2, row.username, password, t3);
      && r3 == r1
      && VerifyAccessToken(svc, st3, r1.value.value.accessToken, t4).0 == Returned(Some(Principal(row.id, row.username)))
  {
    var row := st.table.rows[k];
    LoginFindsRow(svc, st, k, password, t);
    var g1 := GenerateTokens(svc, st, row.id, row.username, t);
    var (r1, st1) := Login(svc, st, row.username, password, t);
    assert (r1, st1) == Issue(g1);
    var tokens := g1.0.value;
    IssueLogoutKeepsRow(svc, st, k, t, tokens.accessToken, tokens.refreshToken, t2);
    var st2 := Logout(svc, st1, tokens.accessToken, tokens.refreshToken, t2).1;
    LoginFindsRow(svc, st2, k, password, t3);
    var g3 := GenerateTokens(svc, st2, row.id, row.username, t3);
    GenerateTokensSameSecond(svc, st, st2, row.id, row.username, t, t3);
    assert g3.0 == g1.0;
    IssuedAccessResolves(svc, st2, k, t3, t4);
  }

  /**
    The refresh token stored for a user is not what refresh checks: a refresh
    in a later second than the presented token's issue second replaces the
    stored token with a different one, and the presented token is still
    accepted by a second refresh.
  */
  lemma RefreshAcceptsRotatedOutToken(svc: Services, st: AuthState, i: int, issuedAt: int, t1: int, t2: int)
    requires Lawful(svc.tokens.jwt.prims)
    requires WellFormed(st.table) && st.table.available && st.cache.available
    requires 0 <= i < |st.table.rows|
    ensures
      var rotated := SignRefreshToken(svc.tokens, RefreshPayload(st.table.rows[i].id), issuedAt);
      var (r1, st1) := Refresh(svc, st, rotated, t1);
      && r1.Returned? && r1.value.Some?
      && st1.table.rows[i].refreshToken == Some(r1.value.value.refreshToken)
      && Refresh(svc, st1, rotated, t2).0.Returned?
      && Refresh(svc, st1, rotated, t2).0.value.Some?
      && (UnixSeconds(t1) != UnixSeconds(issuedAt) ==> st1.table.rows[i].refreshToken != Some(rotated))
  {
    var row := st.table.rows[i];
    var rotated := SignRefreshToken(svc.tokens, RefreshPayload(row.id), issuedAt);
    if UnixSeconds(t1) != UnixSeconds(issuedAt) {
      SignDiffersAcrossSeconds(svc.tokens.jwt, RefreshPayload(row.id), true, DefaultExpiresIn, t1, issuedAt);
    }
    RefreshSignVerify(svc.tokens, RefreshPayload(row.id), issuedAt);
    DecodeTokenOfSigned(svc.tokens, RefreshPayload(row.id), true, issuedAt);
    GetUserByIdFinds(st.table, i);
    var (r1, st1) := Refresh(svc, st, rotated, t1);
    assert (r1, st1) == Issue(GenerateTokens(svc, st, row.id, row.username, t1));
    GenerateTokensWellFormed(svc, st, row.id, row.username, t1);
    GetUserByIdFinds(st1.table, i);
  }

  /**
    Signing up and then logging in with the same password succeeds when the
    password is hashed once (the corrected signUp).
  */
  lemma SignUpThenLogin(svc: Services, st: AuthState, username: string, password: string, salt: seq<byte>, t: int, t': int)
    requires Lawful(svc.users.prims)
    requires WellFormed(st.table)
    requires |salt| == svc.users.saltRounds
    requires st.table.available && st.cache.available && !Taken(st.table, username)
    ensures
      var (r, st') := SignUp(svc, st, username, password, salt, t);
      var l := Login(svc, st', username, password, t').0;
      && r.Returned? && r.value.Some?
      && l.Returned? && l.value.Some? && l.value.value.id == r.value.value.id
  {
    var (user, table1) := CreateUser(svc.users, st.table, username, password, salt);
    CreateUserWellFormed(svc.users, st.table, username, password, salt);
    var st1 := st.(table := table1);
    var (r, st') := SignUp(svc, st, username, password, salt, t);
    assert (r, st') == Issue(GenerateTokens(svc, st1, user.value.id, username, t));
    GenerateTokensWellFormed(svc, st1, user.value.id, username, t);
    var k := |st.table.rows|;
    assert st'.table.rows[k].username == username;
    assert st'.table.rows[k].password == HashPassword(svc.users, password, salt);
    GetUserByUsernameFinds(st'.table, k);
    VerifyOwnHash(svc.users, password, salt);
  }

  /**
    The signUp of the source stores the hash of the hash of the password, so
    a later login with that password fails: login derives scrypt of the
    password itself under the stored salt, and it differs from scrypt of the
    first hash under that salt unless scrypt collides on exactly that pair.
  */
  lemma SignUpAsWrittenBreaksLogin(svc: Services, st: AuthState, username: string, password: string,
                                    salt1: seq<byte>, salt2: seq<byte>, t: int, t': int)
    requires Lawful(svc.users.prims)
    requires WellFormed(st.table)
    requires |salt1| == svc.users.saltRounds && |salt2| == svc.users.saltRounds
    requires svc.users.prims.scrypt(password, Hex(salt2), KeyLength)
          != svc.users.prims.scrypt(HashPassword(svc.users, password, salt1), Hex(salt2), KeyLength)
    requires st.table.available && st.cache.available && !Taken(st.table, username)
    ensures
      var (r, st') := SignUpAsWritten(svc, st, username, password, salt1, salt2, t);
      && r.Returned? && r.value.Some?
      && GetUserByUsername(st'.table, username).Some?
      && Login(svc, st', username, password, t').0 == Returned(None)
  {
    var hashed := HashPassword(svc.users, password, salt1);
    var (user, table1) := CreateUser(svc.users, st.table, username, hashed, salt2);
    CreateUserWellFormed(svc.users, st.table, username, hashed, salt2);
    var st1 := st.(table := table1);
    var (r, st') := SignUpAsWritten(svc, st, username, password, salt1, salt2, t);
    assert (r, st') == Issue(GenerateTokens(svc, st1, user.value.id, username, t));
    GenerateTokensWellFormed(svc, st1, user.value.id, username, t);
    var k := |st.table.rows|;
    assert st'.table.rows[k].username == username;
    assert st'.table.rows[k].password == HashPassword(svc.users, hashed, salt2);
    GetUserByUsernameFinds(st'.table, k);
    VerifyOtherPasswordFails(svc.users, hashed, password, salt2);
  }

  /** Every cache entry marked valid is keyed by a token whose access-class signature verifies. */
  ghost predicate ValidEntriesSigned(svc: Services, cache: Redis)
  {
    forall k | k in cache.entries && cache.entries[k].value == ValidStatus ::
      VerifyAccess(svc.tokens, k) == Returned(true)
  }

  /**
    While the invariant holds, the cache short-cut agrees with the signature
    check: whatever verifyAccessToken accepts, `verify` accepts too.
  */
  lemma ShortcutAgreesWithSignature(svc: Services, st: AuthState, token: string, nowMs: int)
    requires ValidEntriesSigned(svc, st.cache)
    ensures
      var r := VerifyAccessToken(svc, st, token, nowMs).0;
      r.Returned? && r.value.Some? ==> VerifyAccess(svc.tokens, token) == Returned(true)
  {
  }

  lemma GenerateTokensKeepsSigned(svc: Services, st: AuthState, userId: int, username: string, nowMs: int)
    requires Lawful(svc.tokens.jwt.prims)
    requires ValidEntriesSigned(svc, st.cache)
    ensures ValidEntriesSigned(svc, GenerateTokens(svc, st, userId, username, nowMs).1.cache)
  {
    if st.cache.available {
      GenerateTokensClaims(svc, st, userId, username, nowMs);
    }
  }

  /** Every operation, and the sweep, preserves the invariant: only genuinely signed tokens are ever cached as valid. */
  lemma SignUpKeepsSigned(svc: Services, st: AuthState, username: string, password: string, salt: seq<byte>, nowMs: int)
    requires Lawful(svc.tokens.jwt.prims)
    requires ValidEntriesSigned(svc, st.cache)
    requires |salt| == svc.users.saltRounds
    ensures ValidEntriesSigned(svc, SignUp(svc, st, username, password, salt, nowMs).1.cache)
  {
    var (user, table') := CreateUser(svc.users, st.table, username, password, salt);
    if user.Some? {
      GenerateTokensKeepsSigned(svc, st.(table := table'), user.value.id, username, nowMs);
    }
  }

  lemma LoginKeepsSigned(svc: Services, st: AuthState, username: string, password: string, nowMs: int)
    requires Lawful(svc.tokens.jwt.prims)
    requires ValidEntriesSigned(svc, st.cache)
    ensures ValidEntriesSigned(svc, Login(svc, st, username, password, nowMs).1.cache)
  {
    var found := GetUserByUsername(st.table, username);
    if found.Some? {
      GenerateTokensKeepsSigned(svc, st, found.value.id, username, nowMs);
    }
  }

  lemma RefreshKeepsSigned(svc: Services, st: AuthState, refreshToken: string, nowMs: int)
    requires Lawful(svc.tokens.jwt.prims)
    requires ValidEntriesSigned(svc, st.cache)
    ensures ValidEntriesSigned(svc, Refresh(svc, st, refreshToken, nowMs).1.cache)
  {
    var decoded := DecodeToken(svc.tokens, refreshToken);
    if decoded.Some? {
      var p := GetUserById(st.table, Some(IdOf(decoded.value)));
      if p.Some? {
        GenerateTokensKeepsSigned(svc, st, p.value.id, p.value.username, nowMs);
      }
    }
  }

  lemma CacheTrafficKeepsSigned(svc: Services, st: AuthState, token: string, other: string, nowMs: int)
    requires ValidEntriesSigned(svc, st.cache)
    ensures ValidEntriesSigned(svc, Logout(svc, st, token, other, nowMs).1.cache)
    ensures ValidEntriesSigned(svc, VerifyAccessToken(svc, st, token, nowMs).1.cache)
    ensures ValidEntriesSigned(svc, Sweep(st.cache, nowMs))
  {
  }
}

=== FILE: auth_service.dfy ===
/**
  src/auth/auth.service.ts: the orchestrator. Each operation is a transition
  of `AuthState` (the `users` table and the token cache) that returns the
  operation's outcome, an exception included, together with the state left
  behind. The clock reading and the random salt bytes are parameters.
*/
module AuthService {
  import opened Wrappers
  import opened Text
  import opened Primitives
  import opened Jwt
  import opened FakeRedis
  import opened TokenService
  import opened UserService

  /** Cache status of a freshly issued access token, and its cache lifetime in seconds. */
  const ValidStatus := "valid"
  const ValidTtl := 600

  /** Cache status of a logged-out access token, and its cache lifetime in seconds. */
  const BlacklistedStatus := "blacklisted"
  const BlacklistTtl := 3600

  datatype Services = Services(users: UserService, tokens: TokenService)

  datatype AuthState = AuthState(table: UserTable, cache: Redis)

  /** What `generateTokens` returns; login and refresh hand the same object back. */
  datatype Tokens = Tokens(id: int, accessToken: string, refreshToken: string)

  /** The access token's payload `{ id, username }`. */
  function AccessPayload(id: int, username: string): map<string, Json>
  {
    map["id" := JNum(id), "username" := JStr(username)]
  }

  /** The refresh token's payload `{ id }`. */
  function RefreshPayload(id: int): map<string, Json>
  {
    map["id" := JNum(id)]
  }

  /**
    `generateTokens(userId, username)`: signs both tokens, caches the access
    token as valid for 600 seconds (a cache failure propagates before the
    table is touched), then stores the refresh token for the user.
  */
  function GenerateTokens(svc: Services, st: AuthState, userId: int, username: string, nowMs: int)
    : (r: (Outcome<Tokens>, AuthState))
    ensures r.0.Threw? <==> !st.cache.available
    ensures r.0.Threw? ==> r.1 == st && r.0.fault == StorageError
    ensures r.0.Returned? ==>
      var t := r.0.value;
      && t.id == userId
      && t.accessToken in r.1.cache.entries
      && r.1.cache.entries[t.accessToken] == Entry(ValidStatus, UnixSeconds(nowMs) + ValidTtl)
      && r.1.cache.available
      && r.1.cache.entries.Keys == st.cache.entries.Keys + {t.accessToken}
      && (forall k | k in st.cache.entries && k != t.accessToken :: r.1.cache.entries[k] == st.cache.entries[k])
      && r.1.table == StoreRefreshToken(st.table, userId, t.refreshToken).1
  {
    var access := SignAccessToken(svc.tokens, AccessPayload(userId, username), nowMs);
    var refresh := SignRefreshToken(svc.tokens, RefreshPayload(userId), nowMs);
    match Set(st.cache, access, ValidStatus, Some(ValidTtl), nowMs)
    case Threw(f) => (Threw(f), st)
    case Returned(cache') =>
      var table' := StoreRefreshToken(st.table, userId, refresh).1;
      (Returned(Tokens(userId, access, refresh)), AuthState(table', cache'))
  }

  /** A `generateTokens` result handed back as a nullable token object. */
  function Issue(r: (Outcome<Tokens>, AuthState)): (r': (Outcome<Option<Tokens>>, AuthState))
    ensures r'.1 == r.1
    ensures r.0.Threw? ==> r'.0 == Threw(r.0.fault)
    ensures r.0.Returned? ==> r'.0 == Returned(Some(r.0.value))
  {
    match r.0
    case Threw(f) => (Threw(f), r.1)
    case Returned(t) => (Returned(Some(t)), r.1)
  }

  /**
    What a successful signUp leaves behind: the pair is for the next id; the
    table gains exactly one row, last, holding that id, the name, the stored
    hash and the issued refresh token, and earlier rows keep their
    credentials; the access token is cached as valid for 600 seconds, no
    other key is added and no other cache entry changes.
  */
  ghost predicate NewAccount(st: AuthState, st': AuthState, t: Tokens, username: string, storedHash: string, nowMs: int)
  {
    && t.id == st.table.nextId
    && |st'.table.rows| == |st.table.rows| + 1
    && st'.table.rows[|st.table.rows|] == Row(st.table.nextId, username, storedHash, Some(t.refreshToken))
    && t.accessToken in st'.cache.entries
    && st'.cache.entries[t.accessToken] == Entry(ValidStatus, UnixSeconds(nowMs) + ValidTtl)
    && st'.cache.entries.Keys == st.cache.entries.Keys + {t.accessToken}
    && (forall i | 0 <= i < |st.table.rows| ::
          && st'.table.rows[i].id == st.table.rows[i].id
          && st'.table.rows[i].username == st.table.rows[i].username
          && st'.table.rows[i].password == st.table.rows[i].password)
    && (forall k | k in st.cache.entries && k != t.accessToken ::
          k in st'.cache.entries && st'.cache.entries[k] == st.cache.entries[k])
  }

  /**
    `signUp(username, password)` as written: the password is hashed here
    and then hashed again by `createUser`, so the stored value is the hash
    of a hash. `salt1` and `salt2` are the two `randomBytes` draws.
  */
  function SignUpAsWritten(svc: Services, st: AuthState, username: string, password: string,
                           salt1: seq<byte>, salt2: seq<byte>, nowMs: int)
    : (r: (Outcome<Option<Tokens>>, AuthState))
    requires |salt1| == svc.users.saltRounds && |salt2| == svc.users.saltRounds
    ensures r.0 == Returned(None) <==> !st.table.available || Taken(st.table, username)
    ensures r.0 == Returned(None) ==> r.1 == st
    ensures r.0.Threw? ==> r.1.table == CreateUser(svc.users, st.table, username, HashPassword(svc.users, password, salt1), salt2).1
    ensures r.0.Returned? && r.0.value.Some? ==>
      NewAccount(st, r.1, r.0.value.value, username, HashPassword(svc.users, HashPassword(svc.users, password, salt1), salt2), nowMs)
  {
    var hashed := HashPassword(svc.users, password, salt1);
    var (user, table') := CreateUser(svc.users, st.table, username, hashed, salt2);
    match user
    case None => (Returned(None), st)
    case Some(u) => Issue(GenerateTokens(svc, st.(table := table'), u.id, username, nowMs))
  }

  /**
    `signUp(username, password)` with the password hashed once, by
    `createUser`: `null` exactly when the insert fails (username taken or
    storage error), otherwise the new id and a fresh token pair.
  */
  function SignUp(svc: Services, st: AuthState, username: string, password: string, salt: seq<byte>, nowMs: int)
    : (r: (Outcome<Option<Tokens>>, AuthState))
    requires |salt| == svc.users.saltRounds
    ensures r.0 == Returned(None) <==> CreateUser(svc.users, st.table, username, password, salt).0.None?
    ensures r.0 == Returned(None) ==> r.1 == st
    ensures r.0.Threw? ==> r.1.table == CreateUser(svc.users, st.table, username, password, salt).1
    ensures r.0.Returned? && r.0.value.Some? ==>
      NewAccount(st, r.1, r.0.value.value, username, HashPassword(svc.users, password, salt), nowMs)
  {
    var (user, table') := CreateUser(svc.users, st.table, username, password, salt);
    match user
    case None => (Returned(None), st)
    case Some(u) => Issue(GenerateTokens(svc, st.(table := table'), u.id, username, nowMs))
  }

  /**
    `login(username, password)`: the same `null` for an unknown username and
    for a wrong password, and nothing changes; otherwise a fresh token pair.
  */
  function Login(svc: Services, st: AuthState, username: string, password: string, nowMs: int)
    : (r: (Outcome<Option<Tokens>>, AuthState))
    ensures r.0 == Returned(None) <==>
      || GetUserByUsername(st.table, username).None?
      || !VerifyPassword(svc.users, password, GetUserByUsername(st.table, username).value.password)
    ensures r.0 == Returned(None) ==> r.1 == st
    ensures r.0.Returned? && r.0.value.Some? ==> r.0.value.value.id == GetUserByUsername(st.table, username).value.id
  {
    match GetUserByUsername(st.table, username)
    case None => (Returned(None), st)
    case Some(user) =>
      if !VerifyPassword(svc.users, password, user.password) then (Returned(None), st)
      else Issue(GenerateTokens(svc, st, user.id, username, nowMs))
  }

  /**
    `refresh(refreshToken)`: a new pair only when the refresh-class signature
    verifies, the payload has a numeric id, and a user with that id exists;
    that pair is the one `generateTokens` issues for the user's row. The
    refresh token stored for the user is never consulted.
  */
  function Refresh(svc: Services, st: AuthState, refreshToken: string, nowMs: int)
    : (r: (Outcome<Option<Tokens>>, AuthState))
    ensures r.0 == Returned(None) ==> r.1 == st
    ensures r.0.Returned? && r.0.value.Some? ==>
      && VerifyRefreshToken(svc.tokens, refreshToken) == Returned(true)
      && IdField(DecodeToken(svc.tokens, refreshToken)) == Some(r.0.value.value.id)
      && GetUserById(st.table, Some(r.0.value.value.id)).Some?
    ensures r.0.Returned? && r.0.value.Some? ==>
      var user := GetUserById(st.table, Some(r.0.value.value.id)).value;
      r == Issue(GenerateTokens(svc, st, user.id, user.username, nowMs))
    ensures VerifyRefreshToken(svc.tokens, refreshToken).Threw? ==> r.0.Threw?
    ensures r.0.Threw? ==> r.1 == st
  {
    match VerifyRefreshToken(svc.tokens, refreshToken)
    case Threw(f) => (Threw(f), st)
    case Returned(ok) =>
      if !ok then (Returned(None), st)
      else match DecodeToken(svc.tokens, refreshToken)
        case None => (Returned(None), st)
        case Some(decoded) =>
          // the source re-checks `typeof decoded.id === 'number'`; decodeToken already guarantees it
          match GetUserById(st.table, Some(IdOf(decoded)))
          case None => (Returned(None), st)
          case Some(user) => Issue(GenerateTokens(svc, st, user.id, user.username, nowMs))
  }

  /**
    `logout(accessToken, refreshToken)`: with either token empty, false and
    no change. Otherwise the access token is blacklisted for 3600 seconds
    (a cache failure propagates) and the result is whether clearing the
    refresh token matched a row.
  */
  function Logout(svc: Services, st: AuthState, accessToken: string, refreshToken: string, nowMs: int)
    : (r: (Outcome<bool>, AuthState))
    ensures accessToken == "" || refreshToken == "" ==> r == (Returned(false), st)
    ensures accessToken != "" && refreshToken != "" && !st.cache.available ==> r == (Threw(StorageError), st)
    ensures accessToken != "" && refreshToken != "" && st.cache.available ==>
      && r.0 == Returned(RemoveRefreshToken(st.table, refreshToken).0)
      && r.1.table == RemoveRefreshToken(st.table, refreshToken).1
      && accessToken in r.1.cache.entries
      && r.1.cache.entries[accessToken] == Entry(BlacklistedStatus, UnixSeconds(nowMs) + BlacklistTtl)
      && r.1.cache.available
      && r.1.cache.entries.Keys == st.cache.entries.Keys + {accessToken}
      && (forall k | k in st.cache.entries && k != accessToken :: r.1.cache.entries[k] == st.cache.entries[k])
  {
    if accessToken == "" || refreshToken == "" then (Returned(false), st)
    else match Set(st.cache, accessToken, BlacklistedStatus, Some(BlacklistTtl), nowMs)
      case Threw(f) => (Threw(f), st)
      case Returned(cache') =>
        var (removed, table') := RemoveRefreshToken(st.table, refreshToken);
        (Returned(removed), AuthState(table', cache'))
  }

  /**
    `verifyAccessToken(token)`: a cached `'blacklisted'` rejects outright; a
    cached `'valid'` trusts the decoded id without checking the signature;
    anything else (miss, expiry, cache failure) falls back to the
    access-class signature check, whose exception propagates. The lazy
    eviction done by the cache read stays in the returned state.
  */
  function VerifyAccessToken(svc: Services, st: AuthState, token: string, nowMs: int)
    : (r: (Outcome<Option<Principal>>, AuthState))
    ensures r.1 == st.(cache := Get(st.cache, token, nowMs).1)
    ensures Get(st.cache, token, nowMs).0 == Some(BlacklistedStatus) ==> r.0 == Returned(None)
    ensures Get(st.cache, token, nowMs).0 == Some(ValidStatus) ==>
      r.0 == Returned(GetUserById(st.table, IdField(DecodeToken(svc.tokens, token))))
    ensures Get(st.cache, token, nowMs).0 !in {Some(BlacklistedStatus), Some(ValidStatus)} ==>
      && (r.0.Returned? && r.0.value.Some? ==> VerifyAccess(svc.tokens, token) == Returned(true))
      && (r.0.Threw? <==> VerifyAccess(svc.tokens, token).Threw?)
    ensures r.0.Returned? && r.0.value.Some? ==> IdField(DecodeToken(svc.tokens, token)) == Some(r.0.value.value.id)
  {
    var (status, cache') := Get(st.cache, token, nowMs);
    var st' := st.(cache := cache');
    if status == Some(BlacklistedStatus) then (Returned(None), st')
    else if status == Some(ValidStatus) then
      match DecodeToken(svc.tokens, token)
      case None => (Returned(None), st')
      case Some(decoded) => (Returned(GetUserById(st.table, Some(IdOf(decoded)))), st')
    else match VerifyAccess(svc.tokens, token)
      case Threw(f) => (Threw(f), st')
      case Returned(ok) =>
        if !ok then (Returned(None), st')
        else (Returned(GetUserById(st.table, IdField(DecodeToken(svc.tokens, token)))), st')
  }
}

=== FILE: fake_redis.dfy ===
/**
  src/redis/fake-redis.ts: a key/value store with per-key expiry kept in the
  `redis_store` table (key is the PRIMARY KEY, so one row per key). Entries
  are evicted lazily by `get` and in bulk by the periodic sweep; the sweep is
  modelled as a function of the clock reading, not of the timer that runs it.
*/
module FakeRedis {
  import opened Wrappers
  import opened Primitives

  /** The TTL `set` uses when the caller passes none. */
  const DefaultTtlSeconds := 600

  datatype Entry = Entry(value: string, expiresAt: int)

  /**
    The table contents, and whether the SQLite backend is answering: when it
    is not, every statement fails with a storage error.
  */
  datatype Redis = Redis(entries: map<string, Entry>, available: bool)

  /** An entry is still served at `nowMs` unless `expires_at < now`; the boundary second is live. */
  predicate Live(e: Entry, nowMs: int)
  {
    !(e.expiresAt < UnixSeconds(nowMs))
  }

  /**
    `set(key, value, ttlSeconds = 600)`: an upsert of `(value, now + ttl)`
    that replaces any earlier entry for `key`. Storage errors are not caught.
  */
  function Set(redis: Redis, key: string, value: string, ttlSeconds: Option<int>, nowMs: int): (r: Outcome<Redis>)
    ensures r.Threw? <==> !redis.available
    ensures r.Threw? ==> r.fault == StorageError
    ensures r.Returned? ==>
      && r.value.available
      && r.value.entries.Keys == redis.entries.Keys + {key}
      && r.value.entries[key] == Entry(value, UnixSeconds(nowMs) + ttlSeconds.GetOr(DefaultTtlSeconds))
      && (forall k | k in redis.entries && k != key :: r.value.entries[k] == redis.entries[k])
  {
    if !redis.available then Threw(StorageError)
    else
      var expiresAt := UnixSeconds(nowMs) + ttlSeconds.GetOr(DefaultTtlSeconds);
      Returned(redis.(entries := redis.entries[key := Entry(value, expiresAt)]))
  }

  /**
    `del(key)`: true exactly when a row was deleted. A storage error is
    caught and reported as false, and nothing is deleted.
  */
  function Del(redis: Redis, key: string): (r: (bool, Redis))
    ensures r.0 <==> redis.available && key in redis.entries
    ensures r.1.available == redis.available
    ensures key !in r.1.entries || !redis.available
    ensures forall k | k != key :: (k in r.1.entries <==> k in redis.entries)
    ensures forall k | k in r.1.entries :: k in redis.entries && r.1.entries[k] == redis.entries[k]
    ensures !redis.available ==> r.1 == redis
  {
    if !redis.available then (false, redis)
    else (key in redis.entries, redis.(entries := redis.entries - {key}))
  }

  /**
    `get(key)`: the stored value while the entry is live; `null` for a
    missing or expired key, and an expired key is deleted on the way out. A
    storage error is caught and reported as `null`, and nothing is deleted.
  */
  function Get(redis: Redis, key: string, nowMs: int): (r: (Option<string>, Redis))
    ensures r.0.Some? <==> redis.available && key in redis.entries && Live(redis.entries[key], nowMs)
    ensures r.0.Some? ==> r.0.value == redis.entries[key].value
    ensures r.1.available == redis.available
    ensures redis.available ==> (key in r.1.entries <==> r.0.Some?)
    ensures forall k | k != key :: k in r.1.entries <==> k in redis.entries
    ensures forall k | k in r.1.entries :: k in redis.entries && r.1.entries[k] == redis.entries[k]
    ensures !redis.available ==> r.1 == redis
  {
    if !redis.available then (None, redis)
    else if key !in redis.entries || redis.entries[key].expiresAt < UnixSeconds(nowMs) then
      (None, Del(redis, key).1)
    else (Some(redis.entries[key].value), redis)
  }

  /**
    The body of the cleanup job: `DELETE FROM redis_store WHERE expires_at < now`.
    A storage error is caught and leaves the table as it was.
  */
  function Sweep(redis: Redis, nowMs: int): (r: Redis)
    ensures r.available == redis.available
    ensures redis.available ==> forall k :: k in r.entries <==> k in redis.entries && Live(redis.entries[k], nowMs)
    ensures forall k | k in r.entries :: k in redis.entries && r.entries[k] == redis.entries[k]
    ensures !redis.available ==> r == redis
  {
    if !redis.available then redis
    else redis.(entries := map k | k in redis.entries && Live(redis.entries[k], nowMs) :: redis.entries[k])
  }

  /** Get on a key that is not stored returns null and changes nothing. */
  lemma GetAbsent(redis: Redis, key: string, nowMs: int)
    requires key !in redis.entries
    ensures Get(redis, key, nowMs) == (None, redis)
  {
    assert redis.entries - {key} == redis.entries;
  }

  /**
    After `set(key, value, ttl)` at `t`, `get(key)` at any `t'` whose second is
    at most `t + ttl` returns `value` and evicts nothing; the boundary second
    itself is still live.
  */
  lemma SetThenGet(redis: Redis, key: string, value: string, ttl: int, t: int, t': int)
    requires redis.available
    requires UnixSeconds(t') <= UnixSeconds(t) + ttl
    ensures
      var stored := Set(redis, key, value, Some(ttl), t).value;
      Get(stored, key, t') == (Some(value), stored)
  {
  }

  /** Past its expiry second, `get` returns null and deletes that key and no other. */
  lemma GetExpired(redis: Redis, key: string, nowMs: int)
    requires redis.available && key in redis.entries
    requires redis.entries[key].expiresAt < UnixSeconds(nowMs)
    ensures Get(redis, key, nowMs) == (None, redis.(entries := redis.entries - {key}))
  {
  }

  /** A second `del` of the same key reports false and changes nothing more. */
  lemma DelTwice(redis: Redis, key: string)
    ensures
      var first := Del(redis, key).1;
      Del(first, key) == (false, first)
  {
    var first := Del(redis, key).1;
    if redis.available {
      assert first.entries - {key} == first.entries;
    }
  }

  /** Sweeping twice at the same clock reading is the same as sweeping once. */
  lemma SweepIdempotent(redis: Redis, nowMs: int)
    ensures Sweep(Sweep(redis, nowMs), nowMs) == Sweep(redis, nowMs)
  {
  }

  /**
    The sweep cannot be observed through `get`: at the sweep's clock reading
    or later, every key reads the same value after a sweep as before it.
  */
  lemma SweepUnobservable(redis: Redis, key: string, sweptAt: int, nowMs: int)
    requires sweptAt <= nowMs
    ensures Get(Sweep(redis, sweptAt), key, nowMs).0 == Get(redis, key, nowMs).0
  {
    assert UnixSeconds(sweptAt) <= UnixSeconds(nowMs);
  }
}

=== FILE: jwt.dfy ===
/**
  The compact token codec of src/utils/JWT.ts: JWS compact serialization
  (RFC 7515 section 7.1) with an HS256 header, as used by RFC 7519, over the
  abstract primitives. Two secrets are held, one per token class.
*/
module Jwt {
  import opened Wrappers
  import opened Text
  import opened Primitives

  /** The default lifetime, in seconds, of a signed token. */
  const DefaultExpiresIn := 3600

  /** The fixed header `{ alg: "HS256" }`. */
  const Header: Json := JObj(map["alg" := JStr("HS256")])

  datatype Jwt = Jwt(prims: Primitives, accessSecret: string, refreshSecret: string) {

    /** The class flag selects the secret, in `sign` and `verify` alike. */
    function Secret(isRefresh: bool): string
    {
      if isRefresh then refreshSecret else accessSecret
    }
  }

  /** `{ ...payload, exp: Math.floor(Date.now() / 1000) + expiresIn }`: a later `exp` wins. */
  function Claims(payload: map<string, Json>, expiresIn: int, nowMs: int): (claims: Json)
    ensures claims.JObj? && claims.fields.Keys == payload.Keys + {"exp"}
    ensures claims.fields["exp"] == JNum(UnixSeconds(nowMs) + expiresIn)
    ensures forall k | k in payload && k != "exp" :: claims.fields[k] == payload[k]
  {
    JObj(payload["exp" := JNum(UnixSeconds(nowMs) + expiresIn)])
  }

  /** The HMAC over `header.body` under the class secret. */
  function Signature(jwt: Jwt, isRefresh: bool, header: string, body: string): string
  {
    jwt.prims.hmacB64(jwt.Secret(isRefresh), header + "." + body)
  }

  /** `jwt.sign(payload, isRefresh, expiresIn)` at clock reading `nowMs`. */
  function Sign(jwt: Jwt, payload: map<string, Json>, isRefresh: bool, expiresIn: int, nowMs: int): (token: string)
  {
    var header := jwt.prims.encodeSegment(Header);
    var body := jwt.prims.encodeSegment(Claims(payload, expiresIn, nowMs));
    header + "." + body + "." + Signature(jwt, isRefresh, header, body)
  }

  /**
    `jwt.verify(token, isRefresh)`: false unless the token has exactly three
    '.'-separated segments; otherwise the recomputed signature is compared
    with `timingSafeEqual`, which throws when the byte lengths differ (the
    source has no catch). The `exp` claim is never looked at.
  */
  function Verify(jwt: Jwt, token: string, isRefresh: bool): (r: Outcome<bool>)
    ensures |Split(token, '.')| != 3 ==> r == Returned(false)
    ensures r.Threw? ==> r.fault == RangeError
    ensures r == Returned(true) ==>
      var parts := Split(token, '.');
      |parts| == 3 && parts[2] == Signature(jwt, isRefresh, parts[0], parts[1])
  {
    if '.' !in token then Returned(false)
    else
      var parts := Split(token, '.');
      if |parts| != 3 then Returned(false)
      else
        var expected := Signature(jwt, isRefresh, parts[0], parts[1]);
        TimingSafeEqual(parts[2], expected)
  }

  /**
    `jwt.decode(token)`: parses the second segment and ignores the rest. A
    token with no '.' has no second segment; `Buffer.from(undefined)` throws
    and the catch turns that into `null`, as it does a `JSON.parse` failure.
  */
  function Decode(jwt: Jwt, token: string): (r: Option<Json>)
    ensures '.' !in token ==> r == None
  {
    var parts := Split(token, '.');
    if |parts| < 2 then None else jwt.prims.decodeSegment(parts[1])
  }

  /** A signed token is exactly three segments: the encoded header, the encoded claims and their signature. */
  lemma SignSegments(jwt: Jwt, payload: map<string, Json>, isRefresh: bool, expiresIn: int, nowMs: int)
    requires Lawful(jwt.prims)
    ensures
      var header := jwt.prims.encodeSegment(Header);
      var body := jwt.prims.encodeSegment(Claims(payload, expiresIn, nowMs));
      Split(Sign(jwt, payload, isRefresh, expiresIn, nowMs), '.')
        == [header, body, Signature(jwt, isRefresh, header, body)]
  {
    var header := jwt.prims.encodeSegment(Header);
    var body := jwt.prims.encodeSegment(Claims(payload, expiresIn, nowMs));
    var signature := Signature(jwt, isRefresh, header, body);
    Base64UrlIsDotFreeAscii(header);
    Base64UrlIsDotFreeAscii(body);
    Base64UrlIsDotFreeAscii(signature);
    SplitThree(header, body, signature, '.');
  }

  /**
    Two tokens signed over the same payload, class and TTL in different
    seconds differ: their bodies carry different `exp` claims.
  */
  lemma {:induction false} SignDiffersAcrossSeconds(jwt: Jwt, payload: map<string, Json>, isRefresh: bool,
                                                     expiresIn: int, nowMs: int, nowMs': int)
    requires Lawful(jwt.prims)
    requires UnixSeconds(nowMs) != UnixSeconds(nowMs')
    ensures Sign(jwt, payload, isRefresh, expiresIn, nowMs) != Sign(jwt, payload, isRefresh, expiresIn, nowMs')
  {
    var body := jwt.prims.encodeSegment(Claims(payload, expiresIn, nowMs));
    var body' := jwt.prims.encodeSegment(Claims(payload, expiresIn, nowMs'));
    assert body != body' by {
      assert jwt.prims.decodeSegment(body) == Some(Claims(payload, expiresIn, nowMs));
      assert jwt.prims.decodeSegment(body') == Some(Claims(payload, expiresIn, nowMs'));
    }
    SignSegments(jwt, payload, isRefresh, expiresIn, nowMs);
    SignSegments(jwt, payload, isRefresh, expiresIn, nowMs');
    assert Split(Sign(jwt, payload, isRefresh, expiresIn, nowMs), '.')[1] == body;
    assert Split(Sign(jwt, payload, isRefresh, expiresIn, nowMs'), '.')[1] == body';
  }

  /** Sign then verify with the same class flag succeeds, for every payload, TTL and clock reading (expired tokens included). */
  lemma VerifySign(jwt: Jwt, payload: map<string, Json>, isRefresh: bool, expiresIn: int, nowMs: int)
    requires Lawful(jwt.prims)
    ensures Verify(jwt, Sign(jwt, payload, isRefresh, expiresIn, nowMs), isRefresh) == Returned(true)
  {
    SignSegments(jwt, payload, isRefresh, expiresIn, nowMs);
  }

  /** Verify accepts exactly the strings of the form `h.b.HMAC(secret, "h.b")` with dot-free `h` and `b`. */
  lemma VerifyAcceptsExactlySigned(jwt: Jwt, h: string, b: string, isRefresh: bool)
    requires Lawful(jwt.prims)
    requires '.' !in h && '.' !in b
    ensures Verify(jwt, h + "." + b + "." + Signature(jwt, isRefresh, h, b), isRefresh) == Returned(true)
    ensures forall token | Verify(jwt, token, isRefresh) == Returned(true) ::
      var parts := Split(token, '.');
      && '.' !in parts[0] && '.' !in parts[1]
      && token == parts[0] + "." + parts[1] + "." + Signature(jwt, isRefresh, parts[0], parts[1])
  {
    var s := Signature(jwt, isRefresh, h, b);
    Base64UrlIsDotFreeAscii(s);
    SplitThree(h, b, s, '.');
    forall token | Verify(jwt, token, isRefresh) == Returned(true)
      ensures
        var parts := Split(token, '.');
        token == parts[0] + "." + parts[1] + "." + Signature(jwt, isRefresh, parts[0], parts[1])
    {
      var parts := Split(token, '.');
      assert parts[1..] == [parts[1], parts[2]] && parts[1..][1..] == [parts[2]];
      assert Join(parts[1..], '.') == parts[1] + "." + parts[2];
      assert Join(parts, '.') == parts[0] + "." + (parts[1] + "." + parts[2]);
    }
  }

  /** On a three-segment token, verify throws exactly when the signature segment is not 43 bytes long. */
  lemma VerifyThrowsOnSignatureLength(jwt: Jwt, token: string, isRefresh: bool)
    requires Lawful(jwt.prims)
    ensures Verify(jwt, token, isRefresh).Threw? <==>
      |Split(token, '.')| == 3 && Utf8Length(Split(token, '.')[2]) != DigestB64Length
  {
    var parts := Split(token, '.');
    if |parts| == 3 {
      Base64UrlIsDotFreeAscii(Signature(jwt, isRefresh, parts[0], parts[1]));
      assert '.' in token by {
        if '.' !in token {
          SplitNoSeparator(token, '.');
        }
      }
    }
  }

  /**
    The two configured secrets never produce the same signature on one
    message. This is about one pair of keys, not all keys: a digest of fixed
    length cannot separate infinitely many keys.
  */
  ghost predicate SecretsSeparate(jwt: Jwt)
  {
    forall message :: jwt.prims.hmacB64(jwt.accessSecret, message) != jwt.prims.hmacB64(jwt.refreshSecret, message)
  }

  /**
    Separation is compatible with the digest laws: a keyed function with two
    distinct 43-character base64url outputs, one for the access secret and one
    for every other key, satisfies both.
  */
  lemma SecretsSeparateIsConsistent(prims: Primitives, accessSecret: string, refreshSecret: string)
    requires accessSecret != refreshSecret
    requires forall key, message ::
      prims.hmacB64(key, message) == if key == accessSecret then seq(DigestB64Length, _ => 'A') else seq(DigestB64Length, _ => 'B')
    ensures SecretsSeparate(Jwt(prims, accessSecret, refreshSecret))
    ensures forall key, message ::
      IsBase64Url(prims.hmacB64(key, message)) && |prims.hmacB64(key, message)| == DigestB64Length
  {
    forall message
      ensures prims.hmacB64(accessSecret, message) != prims.hmacB64(refreshSecret, message)
    {
      assert prims.hmacB64(accessSecret, message)[0] == 'A';
      assert prims.hmacB64(refreshSecret, message)[0] == 'B';
    }
  }

  /** When the two secrets are separated, a token of one class never verifies as the other. */
  lemma VerifyRejectsOtherClass(jwt: Jwt, payload: map<string, Json>, isRefresh: bool, expiresIn: int, nowMs: int)
    requires Lawful(jwt.prims) && SecretsSeparate(jwt)
    ensures Verify(jwt, Sign(jwt, payload, isRefresh, expiresIn, nowMs), !isRefresh) == Returned(false)
  {
    SignSegments(jwt, payload, isRefresh, expiresIn, nowMs);
    var header := jwt.prims.encodeSegment(Header);
    var body := jwt.prims.encodeSegment(Claims(payload, expiresIn, nowMs));
    Base64UrlIsDotFreeAscii(Signature(jwt, isRefresh, header, body));
    Base64UrlIsDotFreeAscii(Signature(jwt, !isRefresh, header, body));
  }

  /** Decoding a signed token returns the payload with `exp` set to issue second plus TTL, overriding any caller `exp`. */
  lemma DecodeSign(jwt: Jwt, payload: map<string, Json>, isRefresh: bool, expiresIn: int, nowMs: int)
    requires Lawful(jwt.prims)
    ensures Decode(jwt, Sign(jwt, payload, isRefresh, expiresIn, nowMs))
      == Some(JObj(payload["exp" := JNum(UnixSeconds(nowMs) + expiresIn)]))
  {
    SignSegments(jwt, payload, isRefresh, expiresIn, nowMs);
  }

  /** Decode reads only the second segment: a forged, missing or multi-dot signature part is ignored. */
  lemma DecodeReadsSecondSegment(jwt: Jwt, h: string, b: string, rest: string)
    requires '.' !in h && '.' !in b
    ensures Decode(jwt, h + "." + b) == jwt.prims.decodeSegment(b)
    ensures Decode(jwt, h + "." + b + "." + rest) == jwt.prims.decodeSegment(b)
  {
    SplitCons(h, '.', b);
    SplitNoSeparator(b, '.');
    SplitCons(h, '.', b + "." + rest);
    SplitCons(b, '.', rest);
    assert h + "." + b + "." + rest == h + "." + (b + "." + rest);
  }
}

=== FILE: primitives.dfy ===
/**
  The foreign calls the auth server makes into Node's runtime, kept abstract:
  JSON plus base64url encoding (RFC 4648 section 5, unpadded), HMAC-SHA256
  (RFC 2104) and scrypt. Each is a function-valued field of `Primitives`; the
  facts the model relies on are stated once, as the predicate `Lawful`, and
  appear as hypotheses of the lemmas that need them; the few collision-freedom
  facts a lemma needs are stated there, about the values involved only. The
  clock and `timingSafeEqual` are concrete.
*/
module Primitives {
  import opened Wrappers
  import opened Text

  /** A JSON value as `JSON.parse` returns it (numbers are restricted to integers). */
  datatype Json =
    | JNull
    | JBool(b: bool)
    | JNum(n: int)
    | JStr(s: string)
    | JArr(items: seq<Json>)
    | JObj(fields: map<string, Json>)

  /** The URL- and filename-safe base64 alphabet of RFC 4648 section 5. */
  predicate IsBase64UrlChar(c: char)
  {
    'A' <= c <= 'Z' || 'a' <= c <= 'z' || '0' <= c <= '9' || c == '-' || c == '_'
  }

  predicate IsBase64Url(s: string)
  {
    forall i | 0 <= i < |s| :: IsBase64UrlChar(s[i])
  }

  /** Unpadded base64url length of a 32-byte HMAC-SHA256 digest: ceil(32 * 4 / 3). */
  const DigestB64Length := 43

  datatype Primitives = Primitives(
    /** `Buffer.from(JSON.stringify(j)).toString('base64url')` */
    encodeSegment: Json -> string,
    /** `JSON.parse(Buffer.from(s, 'base64url').toString())`; None when `JSON.parse` throws */
    decodeSegment: string -> Option<Json>,
    /** `createHmac('sha256', Buffer.from(secret, 'utf-8')).update(message).digest('base64url')` */
    hmacB64: (string, string) -> string,
    /** `scryptSync(password, salt, keyLength)` */
    scrypt: (string, string, nat) -> seq<byte>
  )

  /**
    The assumptions under which the token and hash formats are provable:
    base64url output stays inside its alphabet (so never contains '.'),
    decoding a segment inverts encoding it (JSON and base64url round trip),
    an HMAC-SHA256 digest encodes to 43 characters, and scrypt returns
    exactly the requested number of bytes.
  */
  ghost predicate Lawful(p: Primitives)
  {
    && (forall j :: IsBase64Url(p.encodeSegment(j)))
    && (forall j :: p.decodeSegment(p.encodeSegment(j)) == Some(j))
    && (forall key, message ::
          IsBase64Url(p.hmacB64(key, message)) && |p.hmacB64(key, message)| == DigestB64Length)
    && (forall password, salt, n :: |p.scrypt(password, salt, n)| == n)
  }

  /** Base64url text contains no '.' and is ASCII, so its UTF-8 length is its length. */
  lemma Base64UrlIsDotFreeAscii(s: string)
    requires IsBase64Url(s)
    ensures '.' !in s
    ensures Utf8Length(s) == |s|
  {
    Utf8LengthAscii(s);
  }

  /**
    `timingSafeEqual(Buffer.from(a, 'utf-8'), Buffer.from(b, 'utf-8'))`: throws
    a RangeError when the two byte buffers differ in length, otherwise compares
    them. UTF-8 is injective, so equal buffers means equal strings.
  */
  function TimingSafeEqual(a: string, b: string): (r: Outcome<bool>)
    ensures r.Threw? <==> Utf8Length(a) != Utf8Length(b)
    ensures r.Threw? ==> r.fault == RangeError
    ensures r == Returned(true) <==> a == b
  {
    if Utf8Length(a) != Utf8Length(b) then Threw(RangeError) else Returned(a == b)
  }

  /** `Math.floor(Date.now() / 1000)` for a clock reading `nowMs` in milliseconds. */
  function UnixSeconds(nowMs: int): (s: int)
    ensures s * 1000 <= nowMs < s * 1000 + 1000
  {
    nowMs / 1000
  }
}

=== FILE: text.dfy ===
/**
  Strings and bytes as the JavaScript runtime sees them: `String.prototype.split`
  on a one-character separator, `Array.prototype.join`, the UTF-8 byte length
  that `Buffer.from(s, 'utf-8')` produces, and lower-case hex encoding of a
  byte buffer (`buf.toString('hex')`).
*/
module Text {

  newtype byte = x: int | 0 <= x < 256

  /** `parts.join(d)`. */
  function Join(parts: seq<string>, d: char): string
  {
    if |parts| == 0 then ""
    else if |parts| == 1 then parts[0]
    else parts[0] + [d] + Join(parts[1..], d)
  }

  /**
    `s.split(d)` for a one-character separator: the maximal separator-free
    pieces between occurrences of `d`. Like JavaScript, the empty string
    splits into one empty piece.
  */
  function Split(s: string, d: char): (parts: seq<string>)
    ensures |parts| >= 1
    ensures forall i | 0 <= i < |parts| :: d !in parts[i]
    ensures Join(parts, d) == s
    decreases |s|
  {
    if |s| == 0 then [""]
    else
      var rest := Split(s[1..], d);
      if s[0] == d then
        assert ([""] + rest)[1..] == rest;
        [""] + rest
      else
        var parts := [[s[0]] + rest[0]] + rest[1..];
        assert parts[1..] == rest[1..];
        assert s == [s[0]] + s[1..];
        parts
  }

  /** A separator-free prefix followed by the separator becomes one piece of its own. */
  lemma {:induction false} SplitCons(a: string, d: char, rest: string)
    requires d !in a
    ensures Split(a + [d] + rest, d) == [a] + Split(rest, d)
    decreases |a|
  {
    var s := a + [d] + rest;
    if |a| == 0 {
      assert s[1..] == rest;
    } else {
      assert s[0] == a[0];
      assert s[1..] == a[1..] + [d] + rest;
      SplitCons(a[1..], d, rest);
      assert [a[0]] + a[1..] == a;
    }
  }

  /** A separator-free string splits into itself alone. */
  lemma {:induction false} SplitNoSeparator(a: string, d: char)
    requires d !in a
    ensures Split(a, d) == [a]
    decreases |a|
  {
    if |a| > 0 {
      SplitNoSeparator(a[1..], d);
      assert [a[0]] + a[1..] == a;
    }
  }

  /** Split inverts Join on separator-free pieces (Split's contract gives the other direction). */
  lemma {:induction false} SplitJoin(parts: seq<string>, d: char)
    requires |parts| >= 1
    requires forall i | 0 <= i < |parts| :: d !in parts[i]
    ensures Split(Join(parts, d), d) == parts
    decreases |parts|
  {
    if |parts| == 1 {
      SplitNoSeparator(parts[0], d);
    } else {
      SplitJoin(parts[1..], d);
      SplitCons(parts[0], d, Join(parts[1..], d));
      assert [parts[0]] + parts[1..] == parts;
    }
  }

  /** The three-segment instance used by the token format and the two-segment one used by password hashes. */
  lemma SplitThree(a: string, b: string, c: string, d: char)
    requires d !in a && d !in b && d !in c
    ensures Split(a + [d] + b + [d] + c, d) == [a, b, c]
  {
    var parts := [a, b, c];
    assert parts[1..] == [b, c] && [b, c][1..] == [c];
    assert Join([b, c], d) == b + [d] + c;
    assert Join(parts, d) == a + [d] + (b + [d] + c);
    assert a + [d] + b + [d] + c == a + [d] + (b + [d] + c);
    SplitJoin(parts, d);
  }

  lemma SplitTwo(a: string, b: string, d: char)
    requires d !in a && d !in b
    ensures Split(a + [d] + b, d) == [a, b]
  {
    var parts := [a, b];
    assert parts[1..] == [b];
    SplitJoin(parts, d);
  }

  /** Number of bytes in the UTF-8 encoding of one Unicode scalar value. */
  function CharUtf8Length(c: char): (n: nat)
    ensures 1 <= n <= 4
    ensures n == 1 <==> IsAscii(c)
  {
    if c as int < 0x80 then 1
    else if c as int < 0x800 then 2
    else if c as int < 0x10000 then 3
    else 4
  }

  predicate IsAscii(c: char)
  {
    c as int < 0x80
  }

  /** `Buffer.from(s, 'utf-8').length`. */
  function Utf8Length(s: string): (n: nat)
    ensures |s| <= n <= 4 * |s|
  {
    if |s| == 0 then 0 else CharUtf8Length(s[0]) + Utf8Length(s[1..])
  }

  /** On ASCII text the byte length is the character count; otherwise it is strictly larger. */
  lemma {:induction false} Utf8LengthAscii(s: string)
    ensures Utf8Length(s) == |s| <==> forall i | 0 <= i < |s| :: IsAscii(s[i])
    decreases |s|
  {
    if |s| > 0 {
      Utf8LengthAscii(s[1..]);
      assert forall i | 1 <= i < |s| :: s[i] == s[1..][i - 1];
    }
  }

  predicate IsHexChar(c: char)
  {
    '0' <= c <= '9' || 'a' <= c <= 'f'
  }

  function HexDigit(n: int): (c: char)
    requires 0 <= n < 16
    ensures IsHexChar(c)
  {
    if n < 10 then ('0' as int + n) as char else ('a' as int + n - 10) as char
  }

  /** `Buffer.from(bytes).toString('hex')`: two lower-case digits per byte, high nibble first. */
  function Hex(bytes: seq<byte>): (s: string)
    ensures |s| == 2 * |bytes|
    ensures forall i | 0 <= i < |s| :: IsHexChar(s[i])
  {
    if |bytes| == 0 then ""
    else [HexDigit(bytes[0] as int / 16), HexDigit(bytes[0] as int % 16)] + Hex(bytes[1..])
  }

  /** Hex encoding loses nothing: equal encodings come from equal buffers. */
  lemma {:induction false} HexInjective(a: seq<byte>, b: seq<byte>)
    requires Hex(a) == Hex(b)
    ensures a == b
    decreases |a|
  {
    if |a| > 0 {
      var ha, hb := Hex(a), Hex(b);
      assert ha[0] == hb[0] && ha[1] == hb[1];
      assert a[0] as int / 16 == b[0] as int / 16;
      assert a[0] as int % 16 == b[0] as int % 16;
      assert ha[2..] == Hex(a[1..]) && hb[2..] == Hex(b[1..]);
      HexInjective(a[1..], b[1..]);
      assert a == [a[0]] + a[1..] && b == [b[0]] + b[1..];
    }
  }
}

=== FILE: token_service.dfy ===
/**
  src/token/token.service.ts: a thin wrapper over the codec that fixes the
  token class per operation and filters decoded payloads on a numeric `id`.
*/
module TokenService {
  import opened Wrappers
  import opened Primitives
  import opened Jwt

  datatype TokenService = TokenService(jwt: Jwt)

  /** `typeof decoded.id === 'number'` on a truthy decoded value: only an object with a numeric `id` passes. */
  predicate HasNumericId(j: Json)
  {
    j.JObj? && "id" in j.fields && j.fields["id"].JNum?
  }

  function IdOf(j: Json): int
    requires HasNumericId(j)
  {
    j.fields["id"].n
  }

  /** `decodeToken(token)?.id`: `undefined` when the token did not decode. */
  function IdField(decoded: Option<Json>): (id: Option<int>)
    ensures id.Some? <==> decoded.Some? && HasNumericId(decoded.value)
    ensures id.Some? ==> id.value == IdOf(decoded.value)
  {
    match decoded
    case Some(j) => if HasNumericId(j) then Some(IdOf(j)) else None
    case None => None
  }

  /** `signAccessToken(payload)`: the codec's defaults, access class and a 3600-second TTL. */
  function SignAccessToken(ts: TokenService, payload: map<string, Json>, nowMs: int): string
  {
    Sign(ts.jwt, payload, false, DefaultExpiresIn, nowMs)
  }

  /** `signRefreshToken(payload)`: refresh class, default 3600-second TTL. */
  function SignRefreshToken(ts: TokenService, payload: map<string, Json>, nowMs: int): string
  {
    Sign(ts.jwt, payload, true, DefaultExpiresIn, nowMs)
  }

  /** `verify(token)`: the access class; a codec exception propagates. */
  function VerifyAccess(ts: TokenService, token: string): Outcome<bool>
  {
    Verify(ts.jwt, token, false)
  }

  /** `verifyRefreshToken(token)`: the refresh class; a codec exception propagates. */
  function VerifyRefreshToken(ts: TokenService, token: string): Outcome<bool>
  {
    Verify(ts.jwt, token, true)
  }

  /**
    `decodeToken(token)`: the decoded value itself when it is an object with a
    numeric `id`, `null` otherwise. The codec's decode never throws, so the
    catch is unreachable.
  */
  function DecodeToken(ts: TokenService, token: string): (r: Option<Json>)
    ensures r.Some? ==> HasNumericId(r.value) && Decode(ts.jwt, token) == r
    ensures r.None? ==> Decode(ts.jwt, token).None? || !HasNumericId(Decode(ts.jwt, token).value)
  {
    match Decode(ts.jwt, token)
    case Some(decoded) => if HasNumericId(decoded) then Some(decoded) else None
    case None => None
  }

  /** An access token verifies under `verify`, for every payload and issue time. */
  lemma AccessSignVerify(ts: TokenService, payload: map<string, Json>, nowMs: int)
    requires Lawful(ts.jwt.prims)
    ensures VerifyAccess(ts, SignAccessToken(ts, payload, nowMs)) == Returned(true)
  {
    VerifySign(ts.jwt, payload, false, DefaultExpiresIn, nowMs);
  }

  /** A refresh token verifies under `verifyRefreshToken`, for every payload and issue time. */
  lemma RefreshSignVerify(ts: TokenService, payload: map<string, Json>, nowMs: int)
    requires Lawful(ts.jwt.prims)
    ensures VerifyRefreshToken(ts, SignRefreshToken(ts, payload, nowMs)) == Returned(true)
  {
    VerifySign(ts.jwt, payload, true, DefaultExpiresIn, nowMs);
  }

  /** With separated secrets, an access token fails `verifyRefreshToken` and a refresh token fails `verify`. */
  lemma ClassesDoNotMix(ts: TokenService, payload: map<string, Json>, nowMs: int)
    requires Lawful(ts.jwt.prims) && SecretsSeparate(ts.jwt)
    ensures VerifyRefreshToken(ts, SignAccessToken(ts, payload, nowMs)) == Returned(false)
    ensures VerifyAccess(ts, SignRefreshToken(ts, payload, nowMs)) == Returned(false)
  {
    VerifyRejectsOtherClass(ts.jwt, payload, false, DefaultExpiresIn, nowMs);
    VerifyRejectsOtherClass(ts.jwt, payload, true, DefaultExpiresIn, nowMs);
  }

  /**
    Decoding a token signed by either operation gives back the payload plus
    `exp` when the payload carries a numeric `id`, and `null` when it does not.
  */
  lemma DecodeTokenOfSigned(ts: TokenService, payload: map<string, Json>, isRefresh: bool, nowMs: int)
    requires Lawful(ts.jwt.prims)
    ensures
      var token := if isRefresh then SignRefreshToken(ts, payload, nowMs) else SignAccessToken(ts, payload, nowMs);
      var claims := JObj(payload["exp" := JNum(UnixSeconds(nowMs) + DefaultExpiresIn)]);
      DecodeToken(ts, token) == if HasNumericId(JObj(payload)) then Some(claims) else None
  {
    DecodeSign(ts.jwt, payload, isRefresh, DefaultExpiresIn, nowMs);
  }
}

=== FILE: user_service.dfy ===
/**
  src/user/user.service.ts: password hashing (`salt_hex "." key_hex`) and the
  `users` table, modelled as its rows in insertion order. The schema's
  constraints (id PRIMARY KEY AUTOINCREMENT, username UNIQUE) are the
  invariant `WellFormed`; a failed statement is caught by every table
  operation and reported as `null` or `false`.
*/
module UserService {
  import opened Wrappers
  import opened Text
  import opened Primitives

  /** `SALT_ROUNDS` when the environment does not set it: the number of random salt bytes. */
  const DefaultSaltRounds := 12

  /** Bytes of scrypt output kept as the derived key. */
  const KeyLength := 64

  datatype UserService = UserService(prims: Primitives, saltRounds: nat)

  /** A row of `users`; `refreshToken` is the nullable `refresh_token` column. */
  datatype Row = Row(id: int, username: string, password: string, refreshToken: Option<string>)

  /** `nextId` is the AUTOINCREMENT sequence: the id the next insert receives. */
  datatype UserTable = UserTable(rows: seq<Row>, nextId: int, available: bool)

  /** What `SELECT id, username` returns. */
  datatype Principal = Principal(id: int, username: string)

  /** The schema's guarantees: positive ids below the sequence, increasing in insertion order, unique usernames. */
  ghost predicate WellFormed(t: UserTable)
  {
    && t.nextId >= 1
    && (forall i | 0 <= i < |t.rows| :: 1 <= t.rows[i].id < t.nextId)
    && (forall i, j | 0 <= i < j < |t.rows| :: t.rows[i].id < t.rows[j].id)
    && (forall i, j | 0 <= i < j < |t.rows| :: t.rows[i].username != t.rows[j].username)
  }

  /**
    `hashPassword(password)`: `saltBytes` is what `randomBytes(saltRounds)`
    returned; the salt is its hex, and the key is the hex of 64 bytes of
    scrypt over the password and that hex salt.
  */
  function HashPassword(svc: UserService, password: string, saltBytes: seq<byte>): string
    requires |saltBytes| == svc.saltRounds
  {
    var salt := Hex(saltBytes);
    salt + "." + Hex(svc.prims.scrypt(password, salt, KeyLength))
  }

  /**
    `verifyPassword(password, stored)`: re-derives the key from the salt
    before the first '.' and compares it with the segment after it. A stored
    value without '.' (the key is `undefined`) and a key of the wrong byte
    length both throw inside the `try`, and come back as false.
  */
  function VerifyPassword(svc: UserService, password: string, stored: string): (ok: bool)
    ensures ok <==>
      var parts := Split(stored, '.');
      |parts| >= 2 && parts[1] == Hex(svc.prims.scrypt(password, parts[0], KeyLength))
  {
    var parts := Split(stored, '.');
    if |parts| < 2 then false
    else
      var derived := Hex(svc.prims.scrypt(password, parts[0], KeyLength));
      match TimingSafeEqual(derived, parts[1])
      case Threw(_) => false
      case Returned(equal) => equal
  }

  /** The first row, in table order, satisfying `username = name`. */
  function FindByName(rows: seq<Row>, name: string): (r: Option<Row>)
    ensures r.Some? ==> r.value in rows && r.value.username == name
    ensures r.None? <==> forall i | 0 <= i < |rows| :: rows[i].username != name
  {
    if |rows| == 0 then None
    else if rows[0].username == name then Some(rows[0])
    else FindByName(rows[1..], name)
  }

  /** The first row, in table order, satisfying `id = id`. */
  function FindById(rows: seq<Row>, id: int): (r: Option<Row>)
    ensures r.Some? ==> r.value in rows && r.value.id == id
    ensures r.None? <==> forall i | 0 <= i < |rows| :: rows[i].id != id
  {
    if |rows| == 0 then None
    else if rows[0].id == id then Some(rows[0])
    else FindById(rows[1..], id)
  }

  predicate Taken(t: UserTable, username: string)
  {
    exists i | 0 <= i < |t.rows| :: t.rows[i].username == username
  }

  /** `getUserByUsername(username)`: the whole row, or `null`. */
  function GetUserByUsername(t: UserTable, username: string): (r: Option<Row>)
    ensures r.Some? <==> t.available && Taken(t, username)
    ensures r.Some? ==> r.value in t.rows && r.value.username == username
  {
    if !t.available then None else FindByName(t.rows, username)
  }

  /**
    `getUserById(id)`: a falsy id (`undefined` or 0) is `null` without a
    query; otherwise only the id and username of the matching row.
  */
  function GetUserById(t: UserTable, id: Option<int>): (r: Option<Principal>)
    ensures id == None || id == Some(0) || !t.available ==> r == None
    ensures r.Some? ==>
      && id == Some(r.value.id)
      && exists i | 0 <= i < |t.rows| :: t.rows[i].id == r.value.id && t.rows[i].username == r.value.username
    ensures r.None? && t.available && id.Some? && id.value != 0 ==>
      forall i | 0 <= i < |t.rows| :: t.rows[i].id != id.value
  {
    if id.None? || id.value == 0 then None
    else if !t.available then None
    else match FindById(t.rows, id.value)
      case None => None
      case Some(row) => Some(Principal(row.id, row.username))
  }

  /**
    `createUser(username, password)`: hashes `password` and inserts it; an
    insert that violates the UNIQUE username (or any storage error) is
    caught and yields `null`. On success the row is read back by username.
  */
  function CreateUser(svc: UserService, t: UserTable, username: string, password: string, saltBytes: seq<byte>)
    : (r: (Option<Row>, UserTable))
    requires |saltBytes| == svc.saltRounds
    ensures r.0.None? <==> !t.available || Taken(t, username)
    ensures r.0.None? ==> r.1 == t
    ensures r.0.Some? ==>
      && r.0.value == Row(t.nextId, username, HashPassword(svc, password, saltBytes), None)
      && r.1 == t.(rows := t.rows + [r.0.value], nextId := t.nextId + 1)
  {
    var hashed := HashPassword(svc, password, saltBytes);
    if !t.available || Taken(t, username) then (None, t)
    else
      var row := Row(t.nextId, username, hashed, None);
      var t' := t.(rows := t.rows + [row], nextId := t.nextId + 1);
      FindByNameAppend(t.rows, row);
      (GetUserByUsername(t', username), t')
  }

  /** A name absent from the existing rows is found at the appended row. */
  lemma {:induction false} FindByNameAppend(rows: seq<Row>, row: Row)
    requires forall i | 0 <= i < |rows| :: rows[i].username != row.username
    ensures FindByName(rows + [row], row.username) == Some(row)
    decreases |rows|
  {
    if |rows| == 0 {
    } else {
      assert (rows + [row])[1..] == rows[1..] + [row];
      FindByNameAppend(rows[1..], row);
    }
  }

  /** `UPDATE users SET refresh_token = token WHERE id = id`: true exactly when a row matched. */
  function StoreRefreshToken(t: UserTable, id: int, token: string): (r: (bool, UserTable))
    ensures r.0 <==> t.available && exists i | 0 <= i < |t.rows| :: t.rows[i].id == id
    ensures r.1.nextId == t.nextId && r.1.available == t.available && |r.1.rows| == |t.rows|
    ensures forall i | 0 <= i < |t.rows| ::
      && r.1.rows[i].id == t.rows[i].id
      && r.1.rows[i].username == t.rows[i].username
      && r.1.rows[i].password == t.rows[i].password
    ensures forall i | 0 <= i < |t.rows| && t.available && t.rows[i].id == id :: r.1.rows[i].refreshToken == Some(token)
    ensures forall i | 0 <= i < |t.rows| && !(t.available && t.rows[i].id == id) :: r.1.rows[i] == t.rows[i]
  {
    if !t.available then (false, t)
    else
      var rows := seq(|t.rows|, i requires 0 <= i < |t.rows| =>
        if t.rows[i].id == id then t.rows[i].(refreshToken := Some(token)) else t.rows[i]);
      (exists i | 0 <= i < |t.rows| :: t.rows[i].id == id, t.(rows := rows))
  }

  /** `UPDATE users SET refresh_token = NULL WHERE refresh_token = token`: true exactly when some row matched. */
  function RemoveRefreshToken(t: UserTable, token: string): (r: (bool, UserTable))
    ensures r.0 <==> t.available && exists i | 0 <= i < |t.rows| :: t.rows[i].refreshToken == Some(token)
    ensures r.1.nextId == t.nextId && r.1.available == t.available && |r.1.rows| == |t.rows|
    ensures forall i | 0 <= i < |t.rows| ::
      && r.1.rows[i].id == t.rows[i].id
      && r.1.rows[i].username == t.rows[i].username
      && r.1.rows[i].password == t.rows[i].password
    ensures t.available ==> forall i | 0 <= i < |t.rows| :: r.1.rows[i].refreshToken != Some(token)
    ensures forall i | 0 <= i < |t.rows| && t.rows[i].refreshToken != Some(token) :: r.1.rows[i] == t.rows[i]
    ensures !t.available ==> r.1 == t
  {
    if !t.available then (false, t)
    else
      var rows := seq(|t.rows|, i requires 0 <= i < |t.rows| =>
        if t.rows[i].refreshToken == Some(token) then t.rows[i].(refreshToken := None) else t.rows[i]);
      (exists i | 0 <= i < |t.rows| :: t.rows[i].refreshToken == Some(token), t.(rows := rows))
  }

  /** The stored hash is `salt "." key`: a 2*saltRounds-digit hex salt and a 128-digit hex key, neither containing '.'. */
  lemma HashPasswordFormat(svc: UserService, password: string, saltBytes: seq<byte>)
    requires Lawful(svc.prims)
    requires |saltBytes| == svc.saltRounds
    ensures
      var parts := Split(HashPassword(svc, password, saltBytes), '.');
      && parts == [Hex(saltBytes), Hex(svc.prims.scrypt(password, Hex(saltBytes), KeyLength))]
      && |parts[0]| == 2 * svc.saltRounds
      && |parts[1]| == 2 * KeyLength
  {
    var salt := Hex(saltBytes);
    var key := Hex(svc.prims.scrypt(password, salt, KeyLength));
    HexIsDotFree(salt);
    HexIsDotFree(key);
    SplitTwo(salt, key, '.');
  }

  /**
    The length of every stored hash: hex salt, '.', 128 hex digits of key;
    with the default 12 salt bytes that is 153 characters.
  */
  lemma HashPasswordLength(svc: UserService, password: string, saltBytes: seq<byte>)
    requires Lawful(svc.prims)
    requires |saltBytes| == svc.saltRounds
    ensures |HashPassword(svc, password, saltBytes)| == 2 * svc.saltRounds + 1 + 2 * KeyLength
    ensures svc.saltRounds == DefaultSaltRounds ==> |HashPassword(svc, password, saltBytes)| == 153
  {
  }

  lemma HexIsDotFree(s: string)
    requires forall i | 0 <= i < |s| :: IsHexChar(s[i])
    ensures '.' !in s
  {
  }

  /** A password verifies against its own hash, whatever salt was drawn. */
  lemma VerifyOwnHash(svc: UserService, password: string, saltBytes: seq<byte>)
    requires Lawful(svc.prims)
    requires |saltBytes| == svc.saltRounds
    ensures VerifyPassword(svc, password, HashPassword(svc, password, saltBytes))
  {
    HashPasswordFormat(svc, password, saltBytes);
  }

  /** Any other password whose key under the same salt differs (no scrypt collision) fails against the hash. */
  lemma VerifyOtherPasswordFails(svc: UserService, password: string, other: string, saltBytes: seq<byte>)
    requires Lawful(svc.prims)
    requires |saltBytes| == svc.saltRounds
    requires svc.prims.scrypt(other, Hex(saltBytes), KeyLength) != svc.prims.scrypt(password, Hex(saltBytes), KeyLength)
    ensures !VerifyPassword(svc, other, HashPassword(svc, password, saltBytes))
  {
    HashPasswordFormat(svc, password, saltBytes);
    var salt := Hex(saltBytes);
    if VerifyPassword(svc, other, HashPassword(svc, password, saltBytes)) {
      HexInjective(svc.prims.scrypt(other, salt, KeyLength), svc.prims.scrypt(password, salt, KeyLength));
    }
  }

  /** Verification never throws: a stored value with no '.', or whose key segment is not 128 bytes, is rejected. */
  lemma VerifyMalformedFails(svc: UserService, password: string, stored: string)
    requires Lawful(svc.prims)
    ensures '.' !in stored ==> !VerifyPassword(svc, password, stored)
    ensures |Split(stored, '.')| >= 2 && Utf8Length(Split(stored, '.')[1]) != 2 * KeyLength ==>
      !VerifyPassword(svc, password, stored)
  {
    if '.' !in stored {
      SplitNoSeparator(stored, '.');
    }
    var parts := Split(stored, '.');
    if |parts| >= 2 {
      var derived := Hex(svc.prims.scrypt(password, parts[0], KeyLength));
      Utf8LengthAscii(derived);
    }
  }

  /** Every insert keeps the schema's guarantees. */
  lemma CreateUserWellFormed(svc: UserService, t: UserTable, username: string, password: string, saltBytes: seq<byte>)
    requires WellFormed(t)
    requires |saltBytes| == svc.saltRounds
    ensures WellFormed(CreateUser(svc, t, username, password, saltBytes).1)
  {
  }

  /** Two lookups agree on whether a row was found and, if so, on its id, username and password. */
  ghost predicate SameCredentials(a: Option<Row>, b: Option<Row>)
  {
    && a.Some? == b.Some?
    && (a.Some? ==> a.value.id == b.value.id && a.value.username == b.value.username && a.value.password == b.value.password)
  }

  /** Rows that differ only in their refresh tokens answer every lookup by name alike. */
  lemma {:induction false} FindByNameIgnoresRefreshTokens(rows: seq<Row>, rows': seq<Row>, name: string)
    requires |rows'| == |rows|
    requires forall i | 0 <= i < |rows| ::
      && rows'[i].id == rows[i].id
      && rows'[i].username == rows[i].username
      && rows'[i].password == rows[i].password
    ensures SameCredentials(FindByName(rows', name), FindByName(rows, name))
    decreases |rows|
  {
    if |rows| > 0 && rows[0].username != name {
      FindByNameIgnoresRefreshTokens(rows[1..], rows'[1..], name);
    }
  }

  /**
    Storing or clearing a refresh token keeps the schema's guarantees, and a
    login lookup by any username finds the same account with the same
    password hash before and after.
  */
  lemma RefreshColumnPreservesCredentials(t: UserTable, id: int, token: string)
    requires WellFormed(t)
    ensures WellFormed(StoreRefreshToken(t, id, token).1) && WellFormed(RemoveRefreshToken(t, token).1)
    ensures forall name ::
      SameCredentials(GetUserByUsername(StoreRefreshToken(t, id, token).1, name), GetUserByUsername(t, name))
    ensures forall name ::
      SameCredentials(GetUserByUsername(RemoveRefreshToken(t, token).1, name), GetUserByUsername(t, name))
  {
    forall name
      ensures SameCredentials(GetUserByUsername(StoreRefreshToken(t, id, token).1, name), GetUserByUsername(t, name))
      ensures SameCredentials(GetUserByUsername(RemoveRefreshToken(t, token).1, name), GetUserByUsername(t, name))
    {
      FindByNameIgnoresRefreshTokens(t.rows, StoreRefreshToken(t, id, token).1.rows, name);
      FindByNameIgnoresRefreshTokens(t.rows, RemoveRefreshToken(t, token).1.rows, name);
    }
  }

  /** After `removeRefreshToken(token)` no row holds `token`, so an immediate second call reports false. */
  lemma RemoveRefreshTokenTwice(t: UserTable, token: string)
    ensures
      var first := RemoveRefreshToken(t, token).1;
      RemoveRefreshToken(first, token) == (false, first)
  {
    var first := RemoveRefreshToken(t, token).1;
    var second := RemoveRefreshToken(first, token).1;
    assert second.rows == first.rows;
  }
}

=== FILE: wrappers.dfy ===
/** Failure-carrying result types shared by every component of the auth server model. */
module Wrappers {

  /** A JavaScript value that may be `null`/`undefined`. */
  datatype Option<+T> = None | Some(value: T) {

    /** The value, or a default when absent (a JavaScript default parameter). */
    function GetOr(default: T): (r: T)
      ensures Some? ==> r == value
      ensures None? ==> r == default
    {
      match this
      case Some(v) => v
      case None => default
    }
  }

  /** The exceptions the modelled code can raise. */
  datatype Fault =
    | RangeError    // `timingSafeEqual` on buffers of unequal length
    | StorageError  // the SQLite backend failed a statement

  /** The observable outcome of a call that may throw instead of returning. */
  datatype Outcome<+T> = Returned(value: T) | Threw(fault: Fault)
}
